=== FILE: README.md ===
# VISSA, iVISSA and the benchmarking's stability scores, in Dafny

This project models the feature selector VISSA (Variable Iterative Space
Shrinkage Approach) of the `auswahl` package and proves properties of the model.
It also models its interval variant iVISSA and two small pieces of the
benchmarking code: the pairwise stability scores and the keys of the results
store.

- **VISSA** (`auswahl/_vissa.py`). Each refinement round builds a weighted Binary
  Sampling Matrix: feature i appears in `round(w_i * n)` of the n submodels, at
  positions given by a shuffled `arange`. The round then scores every submodel,
  keeps the best `q = int(0.05 * n)` submodels, and turns the frequency of each
  feature among them into its next weight. `_yield_best_weights` repeats rounds
  while the mean top score strictly improves, for at most 5 rounds.
  `VISSA._fit` repeats that call until the score stops improving, or until
  enough features are certain (weight at least `(n - 0.5)/n`). It then marks the
  k features of highest weight.
- **iVISSA**. After every accepted refinement, each newly certain feature is
  grown into an interval. The growth greedily absorbs neighbours, alternating
  left and right, as long as adding one strictly improves the score.
- **Stability scores** (`auswahl/benchmarking/util/metrics.py`). The Deng and
  Zucknick similarity of two selections. Every pair of distinct runs is
  compared, and the mean score is registered for each feature configuration,
  method and data set.
- **Results store** (`auswahl/benchmarking/util/data_handling.py`):
  - the lookup keys and the check that names the first key item missing from
    the index;
  - the sorted bookkeeping of the constructor;
  - the file name `store` writes.

Modules, one file each:

- `Wrappers`: Option and Result.
- `Numerics`: numpy rounding and counting.
- `Sampling`: the sampling matrix.
- `Ranking`: the stable descending sort and the top-k mask.
- `Refinement`: one call of `_yield_best_weights`.
- `Vissa` and `Intervals`: the two selectors as classes.
- `Sorting`: Python's `sorted` on strings and numbers.
- `DataHandling`: the results store.
- `Stability`: the scores.

Outside effects are parameters:

- **The estimator's cross-validated score**: a function from the columns used,
  in order, to a real (`Scorer`).
- **The random generator**: the sequence of shuffled `arange(f * n)` arrays it
  produces (`Shuffles`). The model counts how many have been drawn.
- **The correlation term of the Zucknick score**: a function (`Correlator`).
- **The runs' stored selections**: a function (`Selections`).

Errors the code raises are modelled as results. Each one corresponds to an
exception the code as written raises:

| error | source line | how it arises |
|---|---|---|
| `EmptyTopQuantile` | `_vissa.py:70` | `n_submodels < 20` makes the top quantile empty, so unpacking `zip()` fails. |
| `NoWeights` | `_vissa.py:182, 294` | The last call returned `None` weights, so `argsort(-None)` fails after `support_` was cleared. |
| `IndexOutOfRange` | `_vissa.py:232-233` | The right limit `-(f - 1)` never stops the right border, so the read at `f` is out of range. |
| `NoToList` | `_vissa.py:225` | From the second interval on, `features` is a list, which has no `.tolist()`. |
| `ZeroDivision` | `metrics.py:143-144, 189` | Python float division by zero. |
| `MissingMeta` | `data_handling.py:124` | `KeyError` from the meta lookup. |
| `IndexError` | `metrics.py:73-74` | A run index past the stored selections. |
| `InvalidThreshold` | `metrics.py:170` | A Zucknick threshold outside [0, 1]. |
| `Ragged` | `metrics.py:66` | Runs that selected different numbers of features: `np.array` of unequal lists raises ValueError. |
| `NotFitted` | `_vissa.py:185, 298` | `check_is_fitted` before any completed fit. |

The model follows these paths instead of assuming them away.

## Model

| member | source | states |
|---|---|---|
| Numerics.RoundHalfEven | auswahl/_vissa.py:24 | numpy's `round`: the result is within 0.5 of x, and an exact tie goes to the even integer |
| Numerics.RoundHalfEvenUnique | auswahl/_vissa.py:24 | those two properties determine the rounded value uniquely |
| Numerics.IndicesWhere | auswahl/_vissa.py:212-213 | `nonzero(m)[0]`: exactly the true positions, strictly increasing |
| Sampling.AppearancesInRange | auswahl/_vissa.py:24 | a weight in [0, 1] asks for between 0 and n appearances |
| Sampling.Row | auswahl/_vissa.py:24-38 | row i of the matrix: the prefix mask of `round(w_i * n)` cells permuted by the `argsort` of block i of the shuffle (a definition; `SamplingMatrixCounts` states its property) |
| Sampling.SamplingMatrix | auswahl/_vissa.py:22-38 | one such row per feature (a definition; see `SamplingMatrixCounts`) |
| Sampling.PrefixMaskCount | auswahl/_vissa.py:27-28 | the unshuffled row `arange(1, n+1) <= a` has exactly a true cells, clamped to [0, n] |
| Sampling.ArgSort | auswahl/_vissa.py:34 | `argsort` of a shuffled block is a permutation of 0..n-1 that orders the keys ascending |
| Sampling.PermutePreservesCount | auswahl/_vissa.py:37-38 | permuting a row by such a permutation keeps its number of true cells |
| Sampling.SamplingMatrixCounts | auswahl/_vissa.py:22-38 | row i of the Binary Sampling Matrix has exactly `round(w_i * n)` true cells (clamped to [0, n]) |
| Sampling.SubmodelFeatures | auswahl/_vissa.py:51 | `X[:, bsm[:, t]]` uses exactly the features of submodel t, in ascending order |
| Ranking.SortDescendingPermutes | auswahl/_vissa.py:67 | `sorted(..., key=-score)` is a permutation of the submodels |
| Ranking.SortDescendingSorted | auswahl/_vissa.py:67 | the sort orders by descending score and keeps ties in submodel order (a stable sort) |
| Ranking.SupportMask | auswahl/_vissa.py:181-182 | the mask has one cell per feature and min(k, f) true cells; every selected feature weighs at least as much as every unselected one |
| Ranking.SortDescending | auswahl/_vissa.py:67 | the submodels ranked by descending score, ties in submodel order (a definition; see `SortDescendingPermutes` and `SortDescendingSorted`) |
| Refinement.SelectionQuantile | auswahl/_vissa.py:158 | `int(0.05 * n)` is 0 exactly when n < 20, and never exceeds n |
| Refinement.Evaluate | auswahl/_vissa.py:50-55 | the score of every submodel, paired with its index (a definition; see `EvaluateScores`) |
| Refinement.EvaluateScores | auswahl/_vissa.py:50-55 | submodel t is listed at position t with the score of the columns it keeps |
| Refinement.TopModels | auswahl/_vissa.py:67-70 | the first q submodels of the ranking (a definition; see `TopModelsRanked`) |
| Refinement.TopModelsRanked | auswahl/_vissa.py:67-70 | the first min(q, n) submodels of the ranking are genuine submodels, in ranked order, and each scores at least as well as every submodel left out |
| Refinement.MeanScore | auswahl/_vissa.py:72 | the mean of the kept scores (a definition; see `MeanScoreBounds`) |
| Refinement.MeanScoreBounds | auswahl/_vissa.py:72 | the mean top score lies between the lowest and the highest kept score |
| Refinement.DivBetween | auswahl/_vissa.py:72 | dividing a total between m·lo and m·hi by m > 0 lands in [lo, hi] |
| Refinement.TopWeights | auswahl/_vissa.py:76 | one weight per feature, each a multiple of 1/q in [0, 1] |
| Refinement.TopWeightsFractions | auswahl/_vissa.py:76 | each new weight is the number of kept submodels containing the feature, divided by q, so it is a multiple of 1/q in [0, 1] |
| Refinement.RoundOutcome | auswahl/_vissa.py:63-76 | one round gives one weight per feature, each a multiple of 1/q in [0, 1] |
| Refinement.Outcomes | auswahl/_vissa.py:60-76 | one outcome per round, every round sampling from the same input weights on the next shuffle |
| Refinement.OutcomesOk | auswahl/_vissa.py:60-76 | every round's candidate weights are one multiple of 1/q in [0, 1] per feature |
| Refinement.Refine | auswahl/_vissa.py:58-80 | the loop over given outcomes: accept while the mean strictly beats the best, stop at the first that does not (a definition; see `RefineProperties`, `RefineFromRound`, `RefineStep`) |
| Refinement.RefineProperties | auswahl/_vissa.py:57-80 | the loop draws between 1 and 5 shuffles; the score never drops below the start; the weights are one multiple of 1/q per feature; weights change only with a strictly better score, and a strictly better score comes with weights |
| Refinement.RefineFromRound | auswahl/_vissa.py:70-76 | the result is the starting score and weights, or the mean top score and the candidate weights of one accepted round drawn before the next unused shuffle |
| Refinement.RefineStep | auswahl/_vissa.py:74-78 | a round that strictly beats the best score is accepted and the loop goes on; any other round ends it with the previous best |
| Refinement.YieldStep | auswahl/_vissa.py:63-78 | round i of a call on its own shuffle is accepted and the loop goes on, or it ends the loop |
| Refinement.FirstRoundDecides | auswahl/_vissa.py:74-78 | a first round that does not beat -10000000 ends the call with `None` weights |
| Refinement.Yield | auswahl/_vissa.py:57-80 | a call draws 1 to 5 shuffles; it returns weights exactly when its score beats the sentinel, and then one multiple of 1/q in [0, 1] per feature |
| Refinement.YieldFromRound | auswahl/_vissa.py:57-80 | the score and weights a call returns are the mean top score and candidate weights of one round on a shuffle it drew |
| Refinement.YieldBestWeights | auswahl/_vissa.py:57-80 | fails (unpacking an empty `zip`) exactly when min(q, n) = 0; otherwise returns what `Yield` specifies |
| Vissa.ThresholdBelowOne | auswahl/_vissa.py:177 | `(n - 0.5)/n` lies strictly between 0 and 1 |
| Vissa.Threshold | auswahl/_vissa.py:177 | `(n - 0.5)/n` (a definition; see `ThresholdBelowOne` and `CertainIffOne`) |
| Vissa.CertainIffOne | auswahl/_vissa.py:176-177 | for a weight produced by a round (a multiple of 1/q), reaching the threshold means being exactly 1 |
| Vissa.CountAtLeast | auswahl/_vissa.py:177 | the number of weights at or above the threshold (a definition) |
| Vissa.Numerator | auswahl/_vissa.py:76 | a multiple x of 1/q is c/q for a count c <= q |
| Vissa.FitLoop | auswahl/_vissa.py:161-178 | the `while True` loop from a draw, a best score and weights: stop when a call does not improve, stop early once at least k weights reach the threshold, otherwise continue from the new weights (a definition; see `FitLoopProperties`, `FitLoopStep`) |
| Vissa.Run | auswahl/_vissa.py:154-178 | the loop from weights 0.5, the sentinel score and the first shuffle (a definition; see `RunProperties`) |
| Vissa.RunProperties | auswahl/_vissa.py:154-178 | the outer loop fails only on an empty top quantile (exactly when n < 20 and fuel remains) or on running out of fuel; the weights it stops with are absent or one multiple of 1/q in [0, 1] per feature |
| Vissa.RunWeightsCertainIffOne | auswahl/_vissa.py:176-177 | each weight the loop stops with reaches the early-stopping threshold exactly when it is 1 |
| Vissa.OuterLoop | auswahl/_vissa.py:161-178 | the `while True` loop, from weights 0.5 and the sentinel score, computes exactly `Run` |
| Vissa.FitLoopProperties | auswahl/_vissa.py:163-178 | from any state: the same error kinds, the empty-quantile condition, and at least one more shuffle drawn |
| Vissa.FitLoopStep | auswahl/_vissa.py:163-178 | one iteration: stop on no improvement, stop early once at least k weights reach the threshold, otherwise continue from the improved weights |
| Vissa.Vissa.Fit | auswahl/_vissa.py:154-182 | the run's failures leave both attributes as they were; otherwise `weights_` holds the weights of the last call; `None` there stores an all-False `support_` and then raises; otherwise `support_` marks min(k, f) features, none lighter than an unmarked one |
| Vissa.Vissa.constructor | auswahl/_vissa.py:138-152 | stores `n_submodels`; `weights_` and `support_` are not set |
| Vissa.Vissa.GetSupportMask | auswahl/_vissa.py:184-186 | returns `support_` exactly when it is set; otherwise fails as not fitted |
| Intervals.NewlySelected | auswahl/_vissa.py:208-214 | the features at the threshold under the next weights, and those of them not at the threshold before, both ascending |
| Intervals.Visit | auswahl/_vissa.py:232-245 | one border step: a neighbour at the threshold is passed over; any other is absorbed (weight set to 1, feature appended, score raised) exactly when it strictly improves the score; nothing else changes |
| Intervals.Improved | auswahl/_vissa.py:240-243 | absorbing a feature whose score strictly beats the running score extends the chain of strict improvements and makes its score the running score |
| Intervals.VisitBorder | auswahl/_vissa.py:232-245 | a visit inside the row keeps the interval invariant, including that every absorption strictly improved the score and the running score is the last absorption's; the neighbour is absorbed exactly when it is below the threshold and strictly improves the running score, which then becomes its score; otherwise nothing but the border changes; the border moves one step outwards, or nothing changes and the neighbour is below the threshold without improving the score |
| Intervals.Sweep | auswahl/_vissa.py:226-252 | the alternating loop keeps the interval invariant, so the returned score is that of the last strictly improving absorption, or the start score if nothing was absorbed; it fails exactly when the right border reaches the column count; when it stops normally, the right neighbour and (unless at column 0) the left neighbour are below the threshold and do not improve the score |
| Intervals.ExpandInterval | auswahl/_vissa.py:216-254 | a list argument fails `.tolist()`; out of range only for an array argument whose every column right of the new feature is at the threshold; on success the interval lo..hi around the new feature is at the threshold, the appended features are the absorbed ones, each strictly improved the score before it, the returned score is the last absorption's (the input score if none), no other weight changes, and neither neighbour just outside is at the threshold or improves the score |
| Intervals.GrowIntervals | auswahl/_vissa.py:256-262 | no newly selected feature leaves weights and score as they are; two or more always fail; exactly one, on success, is grown into an interval as `_expand_interval` promises, and the returned score is the last strictly improving absorption's or the input score; weights only change from below the threshold to 1; the score never drops |
| Intervals.Grow | auswahl/_vissa.py:285 | fails only with the two interval errors; no newly selected feature returns the accepted weights and score; two or more fail; exactly one, on success, grows an interval around it and returns the score of its last strictly improving absorption, or the call's score if none; otherwise the score does not drop and each weight is the accepted one or a 1 that replaced a sub-threshold weight |
| Intervals.GrownIntervalSelected | auswahl/_vissa.py:256-262 | after growing around one newly selected feature, every feature of the interval, the new one included, is at the threshold and the neighbours just outside are not |
| Intervals.AcceptCall | auswahl/_vissa.py:284-287 | a call that beat the best score, with its weights grown and its score replaced by that of the last strictly improving absorption, is an accepted iteration of the loop |
| Intervals.NextCall | auswahl/_vissa.py:278-283 | the `_yield_best_weights` call the loop makes from a state (a definition; see `IntervalLoop`) |
| Intervals.TraceExtend | auswahl/_vissa.py:284-287 | an accepted iteration extends a run of accepted iterations |
| Intervals.IntervalLoop | auswahl/_vissa.py:275-289 | error kinds; the empty quantile exactly when n < 20 and fuel remains; every iteration before the last accepts a call whose score strictly beats the best and continues from its weights grown as `Grow` promises, with the score of the last strictly improving absorption (the call's score if none); a success returns the weights of the first call that does not beat the best; an interval error comes from an accepted call; the weights are one multiple of 1/q per feature |
| Intervals.IVissa.Fit | auswahl/_vissa.py:268-294 | error kinds; n < 20 fails on the empty quantile; a failed loop leaves the attributes; otherwise the loop's trace is a run of accepted iterations, each growing intervals as `Grow` promises, and `weights_` is what the first non-improving call from its last state returned; `None` there stores an all-False `support_` before `argsort` fails; on success `support_` marks min(intervals × width, f) features of highest weight |
| Intervals.IVissa.constructor | auswahl/_vissa.py:191-206 | stores `n_submodels`; `weights_` and `support_` are not set |
| Intervals.IVissa.GetSupportMask | auswahl/_vissa.py:297-299 | returns `support_` exactly when it is set; otherwise fails as not fitted |
| Stability.MetricName | auswahl/benchmarking/util/metrics.py:20-24 | the given name, or the class name for None |
| Stability.NewDeng | auswahl/benchmarking/util/metrics.py:137-138 | a Deng metric named by the rule above |
| Stability.NewZucknick | auswahl/benchmarking/util/metrics.py:164-170 | accepted exactly when 0 <= threshold <= 1, and a ValueError otherwise |
| Stability.DefaultMetrics | auswahl/benchmarking/util/metrics.py:137-164 | without arguments the metrics are named `deng_score` and `zucknick_score`, and the correlation threshold is 0.8 |
| Stability.InterSizeBound | auswahl/benchmarking/util/metrics.py:185-186 | the intersection is no larger than the first selection and is symmetric, so the Zucknick union is never negative |
| Stability.DengScore | auswahl/benchmarking/util/metrics.py:140-144 | KeyError for an unregistered data set; division by zero exactly when N = 0, n = 0 or n = N; a number otherwise |
| Stability.DengDenominator | auswahl/benchmarking/util/metrics.py:143-144 | n - n²/N is 0 exactly when n is 0 or N |
| Stability.DengSelf | auswahl/benchmarking/util/metrics.py:140-144 | two equal selections of 0 < n < N distinct features score exactly 1 |
| Stability.DengSymmetric | auswahl/benchmarking/util/metrics.py:140-144 | for selections of equal size the score does not depend on the argument order |
| Stability.ThresholdedCorrelation | auswahl/benchmarking/util/metrics.py:172-175 | the term is 0 exactly when S2 ⊆ S1 (empty set difference) |
| Stability.ZucknickScore | auswahl/benchmarking/util/metrics.py:182-189 | KeyError for an unregistered data set; division by zero exactly when both selections are empty; NaN exactly when only the first is |
| Stability.ZucknickSelf | auswahl/benchmarking/util/metrics.py:182-189 | two equal non-empty selections of distinct features score exactly 1 |
| Stability.ZucknickSymmetric | auswahl/benchmarking/util/metrics.py:182-189 | for selections of equal size the score does not depend on the argument order |
| Stability.PairwiseSimProperties | auswahl/benchmarking/util/metrics.py:38-40 | both metrics are symmetric for equal sizes, as the pairwise design assumes, and score equal selections 1 |
| Stability.ComparedPairs | auswahl/benchmarking/util/metrics.py:69-71 | the filtered `triu_indices(r)` are exactly the pairs i < j < r, r(r-1)/2 of them |
| Stability.TriuIndices | auswahl/benchmarking/util/metrics.py:69 | `np.triu_indices(r)`: row after row, the pairs (i, j) with i <= j < r (a definition; see `ComparedPairs`) |
| Stability.SimilaritiesFrom | auswahl/benchmarking/util/metrics.py:68-75 | the loop over the pairs: skip the diagonal, IndexError past the selections, stop at the first failing score, append the others (a definition; see `SimilaritiesContents`) |
| Stability.SimilaritiesContents | auswahl/benchmarking/util/metrics.py:68-75 | the comparisons succeed exactly when no compared pair fails, and then hold one score per pair i < j, in order |
| Stability.Mean | auswahl/benchmarking/util/metrics.py:76 | `np.mean` is a number exactly when there are scores and none is NaN |
| Stability.MeanConstant | auswahl/benchmarking/util/metrics.py:76 | the mean of equal scores is that score |
| Stability.Rectangular | auswahl/benchmarking/util/metrics.py:66 | every run selected as many features as the first (a definition) |
| Stability.CellScore | auswahl/benchmarking/util/metrics.py:64-76 | the mean score of one cell: Ragged when the runs differ in size, otherwise the comparisons' error or their mean (a definition; see `StableSelectionsScoreOne`) |
| Stability.StableSelectionsScoreOne | auswahl/benchmarking/util/metrics.py:60-82 | with at least two runs that all selected the same 0 < n < N distinct features, the registered score is 1 |
| Stability.ScoreDatasets | auswahl/benchmarking/util/metrics.py:63-82 | the data-set loop, stopping at the first cell that raises (a definition; see `ScoreDatasetsCorrect`) |
| Stability.ScoreMethods | auswahl/benchmarking/util/metrics.py:62-82 | the method loop (a definition; see `ScoreMethodsCorrect`) |
| Stability.ScoreDescriptors | auswahl/benchmarking/util/metrics.py:61-82 | the configuration loop (a definition; see `ScoreDescriptorsCorrect`) |
| Stability.ScoreDatasetsCorrect | auswahl/benchmarking/util/metrics.py:63-82 | the data-set loop only adds keys of its cells; it stops exactly when a cell raises; otherwise each cell holds its mean score |
| Stability.ScoreMethodsCorrect | auswahl/benchmarking/util/metrics.py:62-82 | the same guarantees over methods × data sets |
| Stability.ScoreDescriptorsCorrect | auswahl/benchmarking/util/metrics.py:61-82 | the same over every configuration: success exactly when every cell scores, and then every cell holds its mean score; no other key changes |
| Stability.PairwiseSimilarities | auswahl/benchmarking/util/metrics.py:68-75 | the loop over `triu_indices(r)` computes the specified comparisons |
| Stability.ScoreCells | auswahl/benchmarking/util/metrics.py:63-82 | the data-set loop, which raises on runs of different sizes before comparing, registers what `ScoreDatasets` specifies and changes nothing else in the store |
| Stability.ScoreMethodsLoop | auswahl/benchmarking/util/metrics.py:62-82 | the method loop registers what `ScoreMethods` specifies |
| Stability.PairwiseScoring | auswahl/benchmarking/util/metrics.py:49-82 | `_pairwise_scoring` leaves the stability table as `ScoreDescriptors` specifies and every other field of the store unchanged |
| DataHandling.FirstAbsent | auswahl/benchmarking/util/data_handling.py:20-24 | the first item of a level that the index lacks; none exactly when all are present |
| DataHandling.IdentifyKeyError | auswahl/benchmarking/util/data_handling.py:13-25 | the first missing item over the levels, slices skipped and scalars wrapped in a list (a definition; see `IdentifyKeyErrorCorrect`) |
| DataHandling.IdentifyKeyErrorCorrect | auswahl/benchmarking/util/data_handling.py:13-25 | no report exactly when every non-slice item is present at its level; a report names an absent item of its level, every item before it in that level is present, and every earlier level is complete |
| DataHandling.WildcardsNeverMissing | auswahl/benchmarking/util/data_handling.py:15-16 | a key of slices alone is never reported |
| DataHandling.Protected | auswahl/benchmarking/util/data_handling.py:28-42 | a lookup KeyError is re-raised without a message; otherwise the result is returned exactly when every requested item is present, and otherwise the reported item is the first missing one that `_identify_key_error` finds, scanning levels and items in order |
| DataHandling.Extras | auswahl/benchmarking/util/data_handling.py:145-148 | the optional levels, in the order reg_metric, stab_metric, sample, of those passed, None becoming a slice (a definition; see the Extras lemmas) |
| DataHandling.ExtrasAppend | auswahl/benchmarking/util/data_handling.py:145-148 | one more name appends its level exactly when it was passed |
| DataHandling.ExtrasNonePassed | auswahl/benchmarking/util/data_handling.py:145-148 | with nothing passed the key has no optional levels |
| DataHandling.ExtrasAllPassed | auswahl/benchmarking/util/data_handling.py:145-148 | with everything passed there is one level per name, in order, None becoming a slice |
| DataHandling.ExtrasLength | auswahl/benchmarking/util/data_handling.py:145-148 | one optional level per name passed |
| DataHandling.AppendOptionalLevels | auswahl/benchmarking/util/data_handling.py:145-148 | the loop appends exactly the optional levels passed, in their fixed order |
| DataHandling.RegressionKeyLevels | auswahl/benchmarking/util/data_handling.py:225 | the regression getter's keys carry the metric and run levels, in that order |
| DataHandling.Convert | auswahl/benchmarking/util/data_handling.py:126-127 | one descriptor per feature configuration, in order |
| DataHandling.DataHandler.MakeKey | auswahl/benchmarking/util/data_handling.py:129-149 | row key: the method or a slice; column key: data set, descriptors (a scalar wrapped in a list), then the optional levels passed, in fixed order; length 2 plus the number passed |
| DataHandling.DataHandler.constructor | auswahl/benchmarking/util/data_handling.py:49-101 | each list is stored sorted and as a permutation of the argument; `n_datasets` is the number of data sets passed; `meta` and the stability table start empty |
| DataHandling.DataHandler.RegisterMeta | auswahl/benchmarking/util/data_handling.py:104-108 | registers each entry's number of wavelengths in order, the later entry winning |
| DataHandling.RegisteredDomain | auswahl/benchmarking/util/data_handling.py:104-108 | afterwards exactly the old and the registered names are present, each holding its last registered value |
| DataHandling.DataHandler.RegisterStability | auswahl/benchmarking/util/data_handling.py:171-177 | writes exactly one cell of the stability table |
| DataHandling.StemBeforeDot | auswahl/benchmarking/util/data_handling.py:337 | the prefix before the first dot: it has no dot and is followed by a dot or the end |
| DataHandling.PickleFileName | auswahl/benchmarking/util/data_handling.py:336-338 | the stem of the name plus `.pickle`, with or without a dot in the name |
| DataHandling.PickleFileNameIdempotent | auswahl/benchmarking/util/data_handling.py:336-338 | storing under a name or under its own stem writes the same file |
| Sorting.SortCorrect | auswahl/benchmarking/util/data_handling.py:57-61 | `sorted` returns an ordered permutation of its argument |
| Sorting.Sort | auswahl/benchmarking/util/data_handling.py:57-61 | `sorted` as an insertion sort under a total preorder (a definition; see `SortCorrect`) |
| Sorting.StrLe | auswahl/benchmarking/util/data_handling.py:57 | Python's lexicographic string order (a definition; see the StrLe lemmas) |
| Sorting.StrLeTotalPreorder | auswahl/benchmarking/util/data_handling.py:57 | Python's string order is total and transitive |
| Sorting.StrLeAntisymmetric | auswahl/benchmarking/util/data_handling.py:57 | two strings each at most the other are equal, so the sorted order of names is unique |

## Left out

- Floating point: weights, scores and thresholds are real numbers. `int(0.05 * n)` is taken as `n / 20`. The double 0.05 lies slightly above 1/20, so the product never rounds below the next multiple of 20. numpy's rounding is taken as exact half-to-even on reals.
- The random generator's internals: only the sequence of shuffles it yields is modelled. `check_random_state` is not modelled.
- The estimator, `cross_val_score`, `clone` and the default `PLSRegression` are an abstract scoring function. Exceptions inside them are not modelled.
- `joblib.Parallel`: submodels are evaluated one after another, which yields the same list.
- The `print` calls and `warnings.catch_warnings` in the refinement: no effect on the result.
- `Vissa.FitLoop`, `Intervals.IntervalLoop` and the two `Fit` methods: the `while True` loops are bounded by a fuel argument. `FuelExhausted` stands for a loop that has not stopped within the fuel, which the code does not bound.
- `Intervals.IntervalLoop`: each accepted iteration is specified through `Grow`'s contract, not by a function that computes the grown weights. Given the interval's bounds, that contract fixes the grown weights and says where the interval stops. It does not fix the bounds themselves, which depend on the scores the greedy walk meets. It does not fix the order in which features were absorbed either; the new score is fixed given the absorbed features, as the score of the last of them.
- `Intervals.Sweep`: the contract does not say that the visits alternate left and right. It pins the absorbed features down only through the chain of strict improvements, the final borders and the two neighbours that do not improve. Another order of visits that satisfies these is not ruled out.
- `Intervals.VisitBorder`: says nothing about which border the next visit takes; that order is the loop's and is the gap listed for `Intervals.Sweep`.
- `Intervals.ExpandInterval`: inherits the gap listed for `Intervals.Sweep`. The order of visits is not fixed; everything else about the grown interval and its score is.
- `Intervals.GrowIntervals`: inherits the gap listed for `Intervals.Sweep`, through `ExpandInterval`.
- `Intervals.Grow`: inherits the gap listed for `Intervals.Sweep`, through `GrowIntervals`.
- `Intervals.AcceptCall`: inherits the gap listed for `Intervals.Sweep`, through `Grow`.
- `Intervals.IVissa.Fit`: inherits the gap listed for `Intervals.Sweep`, through `IntervalLoop`.
- `Refinement.ShufflesFit`: only the length of each shuffle is constrained, not that it is a permutation of `arange(f * n)`. `ArgSort` is a stable sort, which agrees with numpy's `argsort` when the keys of a block are distinct, as they are in a permutation.
- `Intervals.NewlySelected`, `Intervals.ExpandInterval`: require n_submodels >= 1, so that the threshold `(n - 0.5)/n` is defined. The code reaches them only after a successful refinement, which needs n >= 20.
- `_extract_intervals` is an empty stub, and the `_base` selector classes (`PointSelector`, `IntervalSelector`, their `fit` and `get_support`) are not part of this model. `check_is_fitted` is approximated by whether `support_` is set.
- Negative or non-integer `n_submodels`, `n_features_to_select` and interval sizes are not modelled: they are natural numbers.
- The Zucknick correlation (`np.corrcoef`, lines 176-180 of metrics.py) is an abstract function. Only its empty-difference case is concrete.
- `Stability.ZucknickScore`: when the first selection is empty and the second is not, the model returns NaN. numpy divides the float 0.0 by 0 there, which gives NaN with a warning; the warning is not modelled.
- Feature descriptors (`FeatureDescriptor` in `_base`) are natural numbers. Their construction from configurations is an abstract function. Selections stored in the results frame are given by a function of (method, descriptor, data set).
- `Stability.CellScore`: `np.array` of runs with different numbers of features is taken to raise ValueError, as numpy 1.24 and later do; older numpy built an object array, and the later `setdiff1d` would then behave differently.
- The pandas frames, their `from_product` indices, the `.loc` getters and registration (other than the stability cell write), `register_meta`'s arrays and the pickling I/O are not modelled. The stability frame's NaN cells are modelled as absent keys.
- `DataHandling.IdentifyKeyError`: requires the key to have no more levels than the index. pandas would have rejected such a lookup before the check runs.
- `DataHandling.DataHandler.constructor`: requires at least one feature descriptor. The code reads `features[0].resolve_tuples` and raises IndexError otherwise.
- `DataHandling.Protected`: the message text (the item's `org_key` and the level's name) is represented by the item and the level's position.
- `store`: `os.path.join` with the directory is not modelled; only the file name is.

=== FILE: data_handling.dfy ===
/**
 * The results store of the benchmarking: keys into its multi-indexed tables,
 * the check that names the first key item missing from the index, the
 * constructor's sorted bookkeeping, and the pickle file name.
 */
module DataHandling {
  import opened Wrappers
  import opened Sorting
  import opened Numerics

  /**
   * A value stored in an index level: a name (dataset, method, metric), a run
   * number, or a feature descriptor, identified here by a number.
   */
  datatype Value = Str(s: string) | Int(i: int) | Descriptor(d: nat)

  /** One level of a lookup key: `slice(None)`, one value, or a list of values. */
  datatype KeyItem = Wildcard | One(v: Value) | Many(vs: seq<Value>)

  /** An argument as passed by the caller: `None`, a scalar, or a list. */
  datatype Arg = NoneArg | Scalar(v: Value) | List(vs: seq<Value>)

  /** The values a key item asks for; a wildcard asks for none. */
  function Items(k: KeyItem): seq<Value>
  {
    match k
    case Wildcard => []
    case One(v) => [v]
    case Many(vs) => vs
  }

  /** `Item <item> not present in level <name>`: the item and the level's position. */
  datatype Missing = Missing(item: Value, level: nat)

  /** The first of `items` that the level does not hold. */
  function FirstAbsent(items: seq<Value>, present: set<Value>): (r: Option<Value>)
    ensures r.None? <==> forall v :: v in items ==> v in present
    ensures r.Some? ==> r.value in items && r.value !in present
    ensures r.Some? ==>
      exists i :: 0 <= i < |items| && items[i] == r.value && forall j :: 0 <= j < i ==> items[j] in present
  {
    if items == [] then None
    else if items[0] !in present then Some(items[0])
    else
      var rest := FirstAbsent(items[1..], present);
      if rest.Some? then
        var i :| 0 <= i < |items[1..]| && items[1..][i] == rest.value &&
          forall j :: 0 <= j < i ==> items[1..][j] in present;
        assert items[i + 1] == rest.value;
        rest
      else rest
  }

  /**
   * `_identify_key_error(key, multiindex)` from level `from` on: levels are
   * searched in order and, within a level, items in order; a wildcard level is
   * skipped. `levels[l]` is the set of values present in level l of the index.
   */
  function IdentifyKeyError(key: seq<KeyItem>, levels: seq<set<Value>>, from: nat): (r: Option<Missing>)
    requires |key| <= |levels|
    decreases |key| - from
  {
    if from >= |key| then None
    else
      var absent := FirstAbsent(Items(key[from]), levels[from]);
      if absent.Some? then Some(Missing(absent.value, from))
      else IdentifyKeyError(key, levels, from + 1)
  }

  /** Every item the key asks for at a level from `from` on is present in that level. */
  ghost predicate AllPresent(key: seq<KeyItem>, levels: seq<set<Value>>, from: nat)
    requires |key| <= |levels|
  {
    forall l, v :: from <= l < |key| && v in Items(key[l]) ==> v in levels[l]
  }

  /**
   * No error is reported exactly when every requested item is present; a
   * reported item is requested at its level, absent from it, every item its
   * level asks for before it is present, and every level before it holds all
   * the items it asks for.
   */
  lemma {:induction false} IdentifyKeyErrorCorrect(key: seq<KeyItem>, levels: seq<set<Value>>, from: nat)
    requires |key| <= |levels|
    ensures IdentifyKeyError(key, levels, from).None? <==> AllPresent(key, levels, from)
    ensures var r := IdentifyKeyError(key, levels, from);
      r.Some? ==> (
        && from <= r.value.level < |key|
        && r.value.item in Items(key[r.value.level])
        && r.value.item !in levels[r.value.level]
        && (exists i :: 0 <= i < |Items(key[r.value.level])| && Items(key[r.value.level])[i] == r.value.item &&
              forall j :: 0 <= j < i ==> Items(key[r.value.level])[j] in levels[r.value.level])
        && forall l, v :: from <= l < r.value.level && v in Items(key[l]) ==> v in levels[l])
    decreases |key| - from
  {
    if from < |key| {
      var absent := FirstAbsent(Items(key[from]), levels[from]);
      if absent.None? {
        IdentifyKeyErrorCorrect(key, levels, from + 1);
      }
    }
  }

  /** A wildcard-only key never reports a missing item. */
  lemma WildcardsNeverMissing(key: seq<KeyItem>, levels: seq<set<Value>>)
    requires |key| <= |levels|
    requires forall l :: 0 <= l < |key| ==> key[l] == Wildcard
    ensures IdentifyKeyError(key, levels, 0) == None
  {
    IdentifyKeyErrorCorrect(key, levels, 0);
  }

  /** What the wrapped getter does: raise a KeyError, or return its result, key and index. */
  datatype Lookup<R> = RaisedKeyError | Returned(res: R, key: seq<KeyItem>, levels: seq<set<Value>>)

  /** A KeyError raised by the wrapper, with its message, or without one when re-raised. */
  datatype KeyError = KeyError(message: Option<Missing>)

  /**
   * `_protected`: a KeyError of the getter is re-raised without a message;
   * otherwise the result comes back unless a requested item is missing from the
   * index, in which case the first missing item, as `_identify_key_error` finds
   * it, is reported.
   */
  function Protected<R>(lookup: Lookup<R>): (r: Result<R, KeyError>)
    requires lookup.Returned? ==> |lookup.key| <= |lookup.levels|
    ensures lookup.RaisedKeyError? ==> r == Failure(KeyError(None))
    ensures lookup.Returned? ==>
      (r.Success? <==> AllPresent(lookup.key, lookup.levels, 0)) &&
      (r.Success? ==> r.value == lookup.res) &&
      (r.Failure? ==> (
        && r.error.message == IdentifyKeyError(lookup.key, lookup.levels, 0)
        && r.error.message.Some?
        && r.error.message.value.level < |lookup.key|
        && r.error.message.value.item in Items(lookup.key[r.error.message.value.level])
        && r.error.message.value.item !in lookup.levels[r.error.message.value.level]))
  {
    match lookup
    case RaisedKeyError => Failure(KeyError(None))
    case Returned(res, key, levels) =>
      IdentifyKeyErrorCorrect(key, levels, 0);
      var missing := IdentifyKeyError(key, levels, 0);
      if missing.Some? then Failure(KeyError(missing)) else Success(res)
  }

  /** `x if x is not None else slice(None)`. */
  function ToItem(a: Arg): KeyItem
  {
    match a
    case NoneArg => Wildcard
    case Scalar(v) => One(v)
    case List(vs) => Many(vs)
  }

  /** The optional key levels, in the order `_make_key` appends them. */
  const OptionalLevels: seq<string> := ["reg_metric", "stab_metric", "sample"]

  /** `kwargs.pop(name, -1) != -1`: the caller passed the level, with anything but -1. */
  predicate Passed(kwargs: map<string, Arg>, name: string)
  {
    name in kwargs && kwargs[name] != Scalar(Int(-1))
  }

  /** The optional levels passed, in the order of `names`, with None as a wildcard. */
  function Extras(names: seq<string>, kwargs: map<string, Arg>): (r: seq<KeyItem>)
    ensures |r| <= |names|
  {
    if names == [] then []
    else (if Passed(kwargs, names[0]) then [ToItem(kwargs[names[0]])] else []) + Extras(names[1..], kwargs)
  }

  lemma {:induction false} ExtrasAppend(names: seq<string>, name: string, kwargs: map<string, Arg>)
    ensures Extras(names + [name], kwargs) ==
      Extras(names, kwargs) + (if Passed(kwargs, name) then [ToItem(kwargs[name])] else [])
    decreases |names|
  {
    if names == [] {
      assert [name][1..] == [];
    } else {
      var h := if Passed(kwargs, names[0]) then [ToItem(kwargs[names[0]])] else [];
      ExtrasAppend(names[1..], name, kwargs);
      assert (names + [name])[0] == names[0];
      assert (names + [name])[1..] == names[1..] + [name];
      assert Extras(names + [name], kwargs) == h + Extras(names[1..] + [name], kwargs);
      assert Extras(names, kwargs) == h + Extras(names[1..], kwargs);
    }
  }

  /** Which of `names` the caller passed. */
  function PassedMask(names: seq<string>, kwargs: map<string, Arg>): (m: seq<bool>)
    ensures |m| == |names| && forall i :: 0 <= i < |names| ==> m[i] == Passed(kwargs, names[i])
  {
    seq(|names|, i requires 0 <= i < |names| => Passed(kwargs, names[i]))
  }

  /** The loop of `_make_key` over the optional levels, in their fixed order. */
  method AppendOptionalLevels(head: seq<KeyItem>, kwargs: map<string, Arg>) returns (key: seq<KeyItem>)
    ensures key == head + Extras(OptionalLevels, kwargs)
  {
    key := head;
    for i := 0 to |OptionalLevels|
      invariant key == head + Extras(OptionalLevels[..i], kwargs)
    {
      var name := OptionalLevels[i];
      var value := if name in kwargs then kwargs[name] else Scalar(Int(-1));
      ExtrasAppend(OptionalLevels[..i], name, kwargs);
      assert OptionalLevels[..i + 1] == OptionalLevels[..i] + [name];
      if value != Scalar(Int(-1)) {
        key := key + [ToItem(value)];
      }
    }
    assert OptionalLevels[..|OptionalLevels|] == OptionalLevels;
  }

  /** One optional level per name passed. */
  lemma {:induction false} ExtrasLength(names: seq<string>, kwargs: map<string, Arg>)
    ensures |Extras(names, kwargs)| == CountTrue(PassedMask(names, kwargs))
    decreases |names|
  {
    if names != [] {
      var prefix := names[..|names| - 1];
      var last := names[|names| - 1];
      assert names == prefix + [last];
      ExtrasLength(prefix, kwargs);
      ExtrasAppend(prefix, last, kwargs);
      assert PassedMask(names, kwargs)[..|names| - 1] == PassedMask(prefix, kwargs);
    }
  }

  /** Nothing passed: the key has no optional levels. */
  lemma {:induction false} ExtrasNonePassed(names: seq<string>, kwargs: map<string, Arg>)
    requires forall i :: 0 <= i < |names| ==> !Passed(kwargs, names[i])
    ensures Extras(names, kwargs) == []
    decreases |names|
  {
    if names != [] {
      assert !Passed(kwargs, names[0]);
      ExtrasNonePassed(names[1..], kwargs);
    }
  }

  /** Everything passed: one level per name, in the order of the names. */
  lemma {:induction false} ExtrasAllPassed(names: seq<string>, kwargs: map<string, Arg>)
    requires forall i :: 0 <= i < |names| ==> Passed(kwargs, names[i])
    ensures |Extras(names, kwargs)| == |names|
    ensures forall i :: 0 <= i < |names| ==> Passed(kwargs, names[i]) && Extras(names, kwargs)[i] == ToItem(kwargs[names[i]])
    decreases |names|
  {
    if names != [] {
      assert Passed(kwargs, names[0]);
      ExtrasAllPassed(names[1..], kwargs);
    }
  }

  /** The regression getter passes a metric and a run, so its keys have four levels. */
  lemma RegressionKeyLevels(metric: Arg, sample: Arg)
    requires metric != Scalar(Int(-1)) && sample != Scalar(Int(-1))
    ensures Extras(OptionalLevels, map["reg_metric" := metric, "sample" := sample]) == [ToItem(metric), ToItem(sample)]
  {
    var kwargs := map["reg_metric" := metric, "sample" := sample];
    assert OptionalLevels[2..][1..] == [];
    assert Extras(OptionalLevels[2..], kwargs) == [ToItem(sample)];
    assert !Passed(kwargs, "stab_metric") && OptionalLevels[1..][1..] == OptionalLevels[2..];
    assert Extras(OptionalLevels[1..], kwargs) == [ToItem(sample)];
  }

  /** The results store. */
  class DataHandler {
    var datasets: seq<string>
    var methods: seq<string>
    var featureDescriptors: seq<nat>
    var regMetrics: seq<string>
    var stabMetrics: seq<string>
    var nRuns: int
    var nDatasets: nat
    /** `meta`: the number of wavelengths of each registered data set (the spectra stay abstract). */
    var meta: map<string, nat>
    /** Written cells of the stability table, by (method, dataset, descriptor, metric). */
    var stability: map<(string, string, nat, string), Score>

    /**
     * `DataHandler(datasets, methods, features, reg_metrics, stab_metrics, n_runs)`:
     * every list is kept sorted; the number of data sets is that of the list passed.
     * The interval setting is read off the first feature descriptor, so there must be one.
     */
    constructor(datasets: seq<string>, methods: seq<string>, features: seq<nat>,
                regMetrics: seq<string>, stabMetrics: seq<string>, nRuns: int)
      requires |features| >= 1
      ensures this.datasets == Sort(datasets, StrLe) && this.methods == Sort(methods, StrLe)
      ensures this.featureDescriptors == Sort(features, NatLe)
      ensures this.regMetrics == Sort(regMetrics, StrLe) && this.stabMetrics == Sort(stabMetrics, StrLe)
      ensures this.nRuns == nRuns && this.nDatasets == |datasets|
      ensures this.stability == map[] && this.meta == map[]
      ensures SortedBy(this.datasets, StrLe) && multiset(this.datasets) == multiset(datasets)
      ensures SortedBy(this.methods, StrLe) && multiset(this.methods) == multiset(methods)
      ensures SortedBy(this.featureDescriptors, NatLe) && multiset(this.featureDescriptors) == multiset(features)
      ensures SortedBy(this.regMetrics, StrLe) && multiset(this.regMetrics) == multiset(regMetrics)
      ensures SortedBy(this.stabMetrics, StrLe) && multiset(this.stabMetrics) == multiset(stabMetrics)
    {
      StrLeTotalPreorder();
      NatLeTotalPreorder();
      SortCorrect(datasets, StrLe);
      SortCorrect(methods, StrLe);
      SortCorrect(features, NatLe);
      SortCorrect(regMetrics, StrLe);
      SortCorrect(stabMetrics, StrLe);
      this.datasets := Sort(datasets, StrLe);
      this.methods := Sort(methods, StrLe);
      this.featureDescriptors := Sort(features, NatLe);
      this.regMetrics := Sort(regMetrics, StrLe);
      this.stabMetrics := Sort(stabMetrics, StrLe);
      this.nRuns := nRuns;
      this.nDatasets := |datasets|;
      this.stability := map[];
      this.meta := map[];
    }

    /** Everything the store holds besides the stability table. */
    function Config(): Configuration
      reads this
    {
      Configuration(datasets, methods, featureDescriptors, regMetrics, stabMetrics, nRuns, nDatasets, meta)
    }

    /** `register_meta`: records each data set's number of wavelengths, a later entry winning. */
    method RegisterMeta(entries: seq<(string, nat)>)
      modifies this
      ensures meta == Registered(old(meta), entries)
      ensures forall name :: name in meta <==> name in old(meta) || exists i :: 0 <= i < |entries| && entries[i].0 == name
      ensures stability == old(stability)
      ensures datasets == old(datasets) && methods == old(methods) && featureDescriptors == old(featureDescriptors)
      ensures regMetrics == old(regMetrics) && stabMetrics == old(stabMetrics) && nRuns == old(nRuns) && nDatasets == old(nDatasets)
    {
      ghost var start := meta;
      for i := 0 to |entries|
        invariant meta == Registered(start, entries[..i])
        invariant stability == old(stability)
        invariant datasets == old(datasets) && methods == old(methods) && featureDescriptors == old(featureDescriptors)
        invariant regMetrics == old(regMetrics) && stabMetrics == old(stabMetrics) && nRuns == old(nRuns) && nDatasets == old(nDatasets)
      {
        assert entries[..i + 1] == entries[..i] + [entries[i]];
        RegisteredAppend(start, entries[..i], entries[i]);
        meta := meta[entries[i].0 := entries[i].1];
      }
      assert entries[..|entries|] == entries;
      RegisteredDomain(start, entries);
    }

    /**
     * `_make_key(dataset, method, n_features, **kwargs)`: the row key (all
     * methods for None) and the column key: data set, the feature descriptors
     * (a scalar wrapped in a list), then each optional level passed.
     */
    method MakeKey(dataset: Arg, methodArg: Arg, nFeatures: Arg, kwargs: map<string, Arg>, describe: Value -> nat)
      returns (methodKey: KeyItem, key: seq<KeyItem>)
      ensures methodKey == ToItem(methodArg)
      ensures |key| == 2 + CountTrue(PassedMask(OptionalLevels, kwargs)) && key[0] == ToItem(dataset)
      ensures nFeatures.NoneArg? ==> key[1] == Wildcard
      ensures nFeatures.Scalar? ==> key[1] == Many([Descriptor(describe(nFeatures.v))])
      ensures nFeatures.List? ==> key[1] == Many(Convert(nFeatures.vs, describe))
      ensures key[2..] == Extras(OptionalLevels, kwargs)
    {
      methodKey := ToItem(methodArg);
      var features := nFeatures;
      if features != NoneArg && !features.List? {
        features := List([features.v]);
      }
      key := [ToItem(dataset), if features != NoneArg then Many(Convert(features.vs, describe)) else Wildcard];
      key := AppendOptionalLevels(key, kwargs);
      ExtrasLength(OptionalLevels, kwargs);
    }

    /** `_register_stability`: writes one cell of the stability table. */
    method RegisterStability(dataset: string, methodName: string, descriptor: nat, metricName: string, value: Score)
      modifies this
      ensures stability == old(stability)[(methodName, dataset, descriptor, metricName) := value]
      ensures Config() == old(Config())
    {
      stability := stability[(methodName, dataset, descriptor, metricName) := value];
    }
  }

  /** A snapshot of the store's fields other than the stability table. */
  datatype Configuration = Configuration(datasets: seq<string>, methods: seq<string>, features: seq<nat>,
    regMetrics: seq<string>, stabMetrics: seq<string>, nRuns: int, nDatasets: nat, meta: map<string, nat>)

  /** The meta map after registering `entries` in order. */
  function Registered(meta: map<string, nat>, entries: seq<(string, nat)>): map<string, nat>
    decreases |entries|
  {
    if entries == [] then meta
    else Registered(meta, entries[..|entries| - 1])[entries[|entries| - 1].0 := entries[|entries| - 1].1]
  }

  lemma RegisteredAppend(meta: map<string, nat>, entries: seq<(string, nat)>, e: (string, nat))
    ensures Registered(meta, entries + [e]) == Registered(meta, entries)[e.0 := e.1]
  {
    assert (entries + [e])[..|entries|] == entries;
  }

  /** A registered name is present, holding the last number registered for it. */
  lemma {:induction false} RegisteredDomain(meta: map<string, nat>, entries: seq<(string, nat)>)
    ensures forall name :: name in Registered(meta, entries) <==>
      name in meta || exists i :: 0 <= i < |entries| && entries[i].0 == name
    ensures forall i :: 0 <= i < |entries| && (forall j :: i < j < |entries| ==> entries[j].0 != entries[i].0) ==>
      Registered(meta, entries)[entries[i].0] == entries[i].1
    decreases |entries|
  {
    if entries != [] {
      var init := entries[..|entries| - 1];
      RegisteredDomain(meta, init);
      forall name | name in meta || exists i :: 0 <= i < |entries| && entries[i].0 == name
        ensures name in Registered(meta, entries)
      {
        if name !in meta && name != entries[|entries| - 1].0 {
          var i :| 0 <= i < |entries| && entries[i].0 == name;
          assert init[i].0 == name;
        }
      }
      forall i | 0 <= i < |entries| && (forall j :: i < j < |entries| ==> entries[j].0 != entries[i].0)
        ensures Registered(meta, entries)[entries[i].0] == entries[i].1
      {
        if i < |entries| - 1 {
          assert init[i] == entries[i];
        }
      }
    }
  }

  /** A stability score, or the NaN of a mean over no pairs. */
  datatype Score = NaN | Num(value: real)

  /** `_feature_descriptor_conversion`: one descriptor per configuration, in order. */
  function Convert(vs: seq<Value>, describe: Value -> nat): (r: seq<Value>)
    ensures |r| == |vs| && forall i :: 0 <= i < |vs| ==> r[i] == Descriptor(describe(vs[i]))
  {
    seq(|vs|, i requires 0 <= i < |vs| => Descriptor(describe(vs[i])))
  }

  /** `file_name.split('.')[0]`: everything before the first dot. */
  function StemBeforeDot(name: string): (stem: string)
    ensures stem <= name
    ensures '.' !in stem
    ensures stem == name || name[|stem|] == '.'
  {
    if name == [] || name[0] == '.' then []
    else [name[0]] + StemBeforeDot(name[1..])
  }

  /** The file `store` writes: the name up to its first dot, with `.pickle` appended. */
  function PickleFileName(fileName: string): (r: string)
    ensures r == StemBeforeDot(fileName) + ".pickle"
    ensures |r| >= 7 && r[..|r| - 7] <= fileName && '.' !in r[..|r| - 7]
  {
    var stem := if '.' in fileName then StemBeforeDot(fileName) else (StemWithoutDot(fileName); fileName);
    assert (stem + ".pickle")[..|stem|] == stem;
    stem + ".pickle"
  }

  /** A name without a dot is kept whole, so `StemBeforeDot` agrees with the guard. */
  lemma {:induction false} StemWithoutDot(name: string)
    requires '.' !in name
    ensures StemBeforeDot(name) == name
    decreases |name|
  {
    if name != [] {
      assert '.' !in name[1..] by {
        forall c | c in name[1..] ensures c in name {}
      }
      StemWithoutDot(name[1..]);
    }
  }

  /** Storing under a name and under its own stem writes the same file. */
  lemma PickleFileNameIdempotent(fileName: string)
    ensures PickleFileName(StemBeforeDot(fileName)) == PickleFileName(fileName)
  {
    StemWithoutDot(StemBeforeDot(fileName));
    if '.' !in fileName {
      StemWithoutDot(fileName);
    }
  }
}

=== FILE: intervals.dfy ===
/**
 * The interval growth of iVISSA: after each accepted refinement, every newly
 * selected feature is widened into an interval by greedily absorbing its
 * neighbours, alternating left and right, and `iVISSA._fit` runs the same outer
 * loop as VISSA around it.
 */
module Intervals {
  import opened Wrappers
  import opened Numerics
  import opened Ranking
  import opened Refinement
  import opened Vissa

  /**
   * `_newly_selected(w, next, n)`: the features at the threshold under the next
   * weights, ascending, and those among them that were not yet at the threshold
   * under the current weights (`np.setdiff1d`, also ascending).
   */
  function NewlySelected(w: seq<real>, next: seq<real>, n: nat): (r: (seq<nat>, seq<nat>))
    requires n >= 1
    ensures forall v: nat :: v in r.0 <==> v < |next| && next[v] >= Threshold(n)
    ensures forall v: nat :: v in r.1 <==> v in r.0 && !(v < |w| && w[v] >= Threshold(n))
    ensures forall a, b :: 0 <= a < b < |r.0| ==> r.0[a] < r.0[b]
    ensures forall a, b :: 0 <= a < b < |r.1| ==> r.1[a] < r.1[b]
    ensures AllBelow(r.1, |next|)
  {
    var t := Threshold(n);
    var selected := IndicesWhere(seq(|next|, j requires 0 <= j < |next| => next[j] >= t));
    var added := IndicesWhere(seq(|next|, j requires 0 <= j < |next| => next[j] >= t && !(j < |w| && w[j] >= t)));
    (selected, added)
  }

  /** The `features` argument: a numpy array on the first call, a Python list afterwards. */
  datatype FeatureList = NdArray(items: seq<nat>) | PyList(items: seq<nat>)

  /**
   * One visit of border b: a feature at the threshold is passed over; any other
   * is absorbed, and marked with weight 1, only if adding it strictly improves
   * the score. The border moves on in both of these cases.
   */
  method Visit(scorer: Scorer, w: array<real>, t: real, fs: seq<nat>, sc: real, b: nat)
    returns (fs': seq<nat>, sc': real, moved: bool, absorbed: bool)
    requires b < w.Length && t < 1.0
    modifies w
    ensures absorbed ==> moved
    ensures moved ==> w[b] >= t
    ensures old(w[b]) >= t ==> moved && !absorbed
    ensures absorbed <==> old(w[b]) < t && scorer(fs + [b]) > sc
    ensures absorbed ==> fs' == fs + [b] && sc' == scorer(fs + [b]) && w[b] == 1.0
    ensures forall i :: 0 <= i < w.Length && i != b ==> w[i] == old(w[i])
    ensures !absorbed ==> fs' == fs && sc' == sc && unchanged(w)
    ensures !moved ==> old(w[b]) < t && scorer(fs + [b]) <= sc
  {
    fs', sc', moved, absorbed := fs, sc, false, false;
    if w[b] >= t {
      moved := true;
    } else {
      var featureScore := scorer(fs + [b]);
      if featureScore > sc {
        sc' := featureScore;
        fs' := fs + [b];
        w[b] := 1.0;
        moved, absorbed := true, true;
      }
    }
  }

  /**
   * The score after absorbing `added` into `items` from the start score: the
   * score of the last absorption, or the start score if nothing was absorbed.
   */
  ghost function ScoreAfter(scorer: Scorer, items: seq<nat>, added: seq<nat>, score: real): real
  {
    if added == [] then score else scorer(items + added)
  }

  /** Each absorption of `added`, in order, strictly improved the score before it. */
  ghost predicate StrictlyImproving(scorer: Scorer, items: seq<nat>, added: seq<nat>, score: real)
    decreases |added|
  {
    added == [] ||
    (var before := added[..|added| - 1];
     StrictlyImproving(scorer, items, before, score) && scorer(items + added) > ScoreAfter(scorer, items, before, score))
  }

  /** Absorbing b after `added` keeps the chain when b strictly improves the running score. */
  lemma Improved(scorer: Scorer, items: seq<nat>, added: seq<nat>, score: real, b: nat)
    requires StrictlyImproving(scorer, items, added, score)
    requires scorer(items + added + [b]) > ScoreAfter(scorer, items, added, score)
    ensures StrictlyImproving(scorer, items, added + [b], score)
    ensures ScoreAfter(scorer, items, added + [b], score) == scorer(items + added + [b])
  {
    assert (added + [b])[..|added|] == added;
    assert items + (added + [b]) == items + added + [b];
  }

  /**
   * The state of `_expand_interval` between visits, against the weights w0 and
   * the score it started from: the borders lie around the new feature, the
   * features added so far lie strictly between them and were below the
   * threshold t and are now marked with 1, each of them strictly improved the
   * score, the running score sc is the last of those scores, no other weight
   * changed, and every feature strictly between the borders is at the threshold.
   */
  ghost predicate Grown(scorer: Scorer, w: array<real>, w0: seq<real>, t: real, items: seq<nat>, newFeature: nat,
                        score: real, fs: seq<nat>, sc: real, added: seq<nat>, borders: seq<int>)
    reads w
  {
    && |w0| == w.Length && |borders| == 2 && -1 <= borders[0] < newFeature < borders[1] <= w.Length
    && fs == items + added
    && sc == ScoreAfter(scorer, items, added, score)
    && StrictlyImproving(scorer, items, added, score)
    && (forall j :: 0 <= j < |added| ==>
          borders[0] < added[j] < borders[1] && added[j] != newFeature && w0[added[j]] < t && w[added[j]] == 1.0)
    && (forall i :: 0 <= i < w.Length && i !in added ==> w[i] == w0[i])
    && (forall i :: borders[0] < i < borders[1] && i != newFeature ==> w[i] >= t)
  }

  /** One visit of the border with the given index, which lies inside the row. */
  method VisitBorder(scorer: Scorer, w: array<real>, t: real, items: seq<nat>, newFeature: nat,
                     fs: seq<nat>, sc: real, borders: seq<int>, index: nat,
                     ghost w0: seq<real>, ghost score: real, ghost added: seq<nat>)
    returns (fs': seq<nat>, sc': real, borders': seq<int>, moved: bool, ghost added': seq<nat>)
    requires t < 1.0 && index <= 1
    requires Grown(scorer, w, w0, t, items, newFeature, score, fs, sc, added, borders)
    requires 0 <= borders[index] < w.Length
    modifies w
    ensures Grown(scorer, w, w0, t, items, newFeature, score, fs', sc', added', borders')
    ensures sc' >= sc
    ensures old(w[borders[index]]) < t && scorer(fs + [borders[index]]) > sc ==>
      fs' == fs + [borders[index]] && sc' == scorer(fs + [borders[index]]) && added' == added + [borders[index]] && moved
    ensures !(old(w[borders[index]]) < t && scorer(fs + [borders[index]]) > sc) ==>
      fs' == fs && sc' == sc && added' == added && unchanged(w)
    ensures moved ==> borders' == borders[index := borders[index] + (if index == 0 then -1 else 1)]
    ensures !moved ==> borders' == borders && fs' == fs && sc' == sc && unchanged(w)
    ensures !moved ==> w[borders[index]] < t && scorer(fs + [borders[index]]) <= sc
  {
    var b := borders[index];
    var absorbed;
    fs', sc', moved, absorbed := Visit(scorer, w, t, fs, sc, b);
    added' := if absorbed then added + [b] else added;
    if absorbed {
      Improved(scorer, items, added, score, b);
    }
    if moved {
      var step := (1 - index) * -1 + index * 1;
      assert step == if index == 0 then -1 else 1;
      borders' := borders[index := b + step];
      assert borders'[0] < b < borders'[1] && w[b] >= t;
    } else {
      borders' := borders;
    }
  }

  /**
   * The interval lo..hi grown around feature f, from the accepted weights to the
   * grown ones, with fs the feature list after the growth: fs extends the
   * selected features by the absorbed ones, which lie in the interval, were below
   * the threshold and are now 1; each absorption strictly improved the score
   * from the start score on, and score is the last of those scores; no other
   * weight changed; every other feature of the interval is at the threshold;
   * and neither neighbour just outside it is at the threshold or improves the
   * score.
   */
  ghost predicate IntervalAround(scorer: Scorer, accepted: seq<real>, grown: seq<real>, start: real, score: real,
                                 selected: seq<nat>, f: nat, n: nat, lo: int, hi: int, fs: seq<nat>)
    requires n >= 1
  {
    && |grown| == |accepted|
    && 0 <= lo <= f <= hi && hi + 1 < |grown|
    && selected <= fs
    && score == ScoreAfter(scorer, selected, fs[|selected|..], start)
    && StrictlyImproving(scorer, selected, fs[|selected|..], start)
    && (forall j :: |selected| <= j < |fs| ==>
          lo <= fs[j] <= hi && fs[j] != f && accepted[fs[j]] < Threshold(n) && grown[fs[j]] == 1.0)
    && (forall i :: 0 <= i < |grown| && i !in fs[|selected|..] ==> grown[i] == accepted[i])
    && (forall i :: lo <= i <= hi && i != f ==> grown[i] >= Threshold(n))
    && (lo == 0 || (grown[lo - 1] < Threshold(n) && scorer(fs + [lo - 1]) <= score))
    && grown[hi + 1] < Threshold(n) && scorer(fs + [hi + 1]) <= score
  }

  /**
   * `_expand_interval(X, y, w, score, features, new_feature, n)`. Borders start
   * next to the new feature; a neighbour at the threshold is passed over, any
   * other is kept only if adding it strictly improves the score, and is then
   * marked with weight 1 in place. The loop ends after a full left-and-right pass
   * without progress. The right limit `-(X.shape[1] - 1)` never stops the right
   * border, so reaching the last column is an out-of-range read.
   * On success, lo..hi is the grown interval around the new feature.
   */
  method ExpandInterval(scorer: Scorer, w: array<real>, score: real, features: FeatureList, newFeature: nat, n: nat)
    returns (r: Result<(seq<nat>, real), FitError>, ghost lo: int, ghost hi: int)
    requires n >= 1 && newFeature < w.Length
    modifies w
    ensures r.Failure? ==> r.error == NoToList || r.error == IndexOutOfRange
    ensures r.Failure? && r.error == NoToList <==> features.PyList?
    ensures features.PyList? ==> unchanged(w)
    ensures forall i :: 0 <= i < w.Length ==>
      w[i] == old(w[i]) || (old(w[i]) < Threshold(n) && w[i] == 1.0)
    ensures r.Failure? && r.error == IndexOutOfRange ==>
      features.NdArray? && forall i :: newFeature < i < w.Length ==> w[i] >= Threshold(n)
    ensures r.Success? ==>
      && r.value.1 >= score
      && IntervalAround(scorer, old(w[..]), w[..], score, r.value.1, features.items, newFeature, n, lo, hi, r.value.0)
  {
    var t := Threshold(n);
    ThresholdBelowOne(n);
    if features.PyList? {
      return Failure(NoToList), 0, 0;
    }
    ghost var w0 := w[..];
    var ok, fs, sc, borders;
    ghost var added;
    ok, fs, sc, borders, added := Sweep(scorer, w, t, features.items, score, newFeature, w0);
    if !ok {
      return Failure(IndexOutOfRange), 0, 0;
    }
    assert fs[|features.items|..] == added;
    return Success((fs, sc)), borders[0] + 1, borders[1] - 1;
  }

  /**
   * The loop of `_expand_interval` on the feature list `items`: alternate left
   * and right visits until a left-and-right pass makes no progress, or the right
   * border runs past the last column (not ok).
   */
  method Sweep(scorer: Scorer, w: array<real>, t: real, items: seq<nat>, score: real, newFeature: nat,
               ghost w0: seq<real>)
    returns (ok: bool, fs: seq<nat>, sc: real, borders: seq<int>, ghost added: seq<nat>)
    requires t < 1.0 && newFeature < w.Length && w0 == w[..]
    modifies w
    ensures Grown(scorer, w, w0, t, items, newFeature, score, fs, sc, added, borders) && sc >= score
    ensures ok ==> borders[1] < w.Length && w[borders[1]] < t && scorer(fs + [borders[1]]) <= sc
    ensures ok ==> borders[0] < 0 || (w[borders[0]] < t && scorer(fs + [borders[0]]) <= sc)
    ensures !ok ==> borders[1] == w.Length
  {
    fs := items;
    sc := score;
    borders := [newFeature - 1, newFeature + 1];
    var limits: seq<int> := [0, -(w.Length - 1)];
    var index := 0;
    var progress := true;
    added := [];
    while true
      invariant index == 0 || index == 1
      invariant limits == [0, -(w.Length - 1)]
      invariant Grown(scorer, w, w0, t, items, newFeature, score, fs, sc, added, borders)
      invariant sc >= score
      invariant index == 1 && !progress ==>
        borders[0] < 0 || (w[borders[0]] < t && scorer(fs + [borders[0]]) <= sc)
      decreases (borders[0] + 1) + (w.Length - borders[1]) + (if progress then 1 else 0), 1 - index
    {
      var b := borders[index];
      if b >= limits[index] {
        if b >= w.Length {
          return false, fs, sc, borders, added;
        }
        var moved;
        fs, sc, borders, moved, added := VisitBorder(scorer, w, t, items, newFeature, fs, sc, borders, index, w0, score, added);
        if moved {
          progress := true;
        }
      }
      if index == 1 && !progress {
        break;
      } else if index == 1 {
        progress := false;
      }
      index := (index + 1) % 2;
    }
    return true, fs, sc, borders, added;
  }

  /**
   * `_grow_intervals(X, y, w, next, score, n)`: expands an interval around every
   * newly selected feature in turn, updating `next` in place. The first call
   * turns the feature array into a Python list, so a second newly selected
   * feature always ends in the `.tolist()` failure.
   */
  method GrowIntervals(scorer: Scorer, w: seq<real>, next: array<real>, score: real, n: nat)
    returns (r: Result<real, FitError>, ghost lo: int, ghost hi: int, ghost fs: seq<nat>)
    requires n >= 1
    modifies next
    ensures r.Failure? ==> r.error == IndexOutOfRange || r.error == NoToList
    ensures |NewlySelected(w, old(next[..]), n).1| >= 2 ==> r.Failure?
    ensures NewlySelected(w, old(next[..]), n).1 == [] ==> r == Success(score) && unchanged(next)
    ensures r.Success? ==> r.value >= score
    ensures forall j :: 0 <= j < next.Length ==>
      next[j] == old(next[j]) || (old(next[j]) < Threshold(n) && next[j] == 1.0)
    ensures var (selected, added) := NewlySelected(w, old(next[..]), n);
      |added| == 1 && r.Success? ==> IntervalAround(scorer, old(next[..]), next[..], score, r.value, selected, added[0], n, lo, hi, fs)
  {
    ThresholdBelowOne(n);
    lo, hi, fs := 0, 0, [];
    ghost var start := next[..];
    var (selected, added) := NewlySelected(w, next[..], n);
    var features := NdArray(selected);
    var sc := score;
    var i := 0;
    while i < |added|
      invariant 0 <= i <= |added|
      invariant |added| >= 2 ==> i <= 1
      invariant sc >= score
      invariant i == 0 ==> features == NdArray(selected) && sc == score && unchanged(next) && next[..] == start
      invariant i >= 1 ==> features.PyList?
      invariant forall j :: 0 <= j < next.Length ==>
        next[j] == old(next[j]) || (old(next[j]) < Threshold(n) && next[j] == 1.0)
      invariant i == 1 && |added| == 1 ==>
        IntervalAround(scorer, start, next[..], score, sc, selected, added[0], n, lo, hi, fs)
    {
      var e;
      ghost var eLo, eHi;
      ghost var before := next[..];
      e, eLo, eHi := ExpandInterval(scorer, next, sc, features, added[i], n);
      if e.Failure? {
        return Failure(e.error), lo, hi, fs;
      }
      if i == 0 {
        assert before == start;
        lo, hi, fs := eLo, eHi, e.value.0;
        assert IntervalAround(scorer, start, next[..], score, e.value.1, selected, added[0], n, lo, hi, fs);
      }
      features := PyList(e.value.0);
      sc := e.value.1;
      i := i + 1;
    }
    return Success(sc), lo, hi, fs;
  }

  /** Each accepted weight is kept, or a weight below the threshold is raised to 1. */
  ghost predicate GrownFrom(grown: seq<real>, accepted: seq<real>, n: nat)
    requires n >= 1
  {
    && |grown| == |accepted|
    && forall j :: 0 <= j < |accepted| ==> grown[j] == accepted[j] || (accepted[j] < Threshold(n) && grown[j] == 1.0)
  }

  /**
   * What growing the accepted weights from w gives, by the number of newly
   * selected features: none leaves weights and score as they are; one grows an
   * interval around it; two or more always fail.
   */
  ghost predicate GrowOutcome(scorer: Scorer, w: seq<real>, accepted: seq<real>, score: real, n: nat,
                              r: Result<(real, seq<real>), FitError>, lo: int, hi: int, fs: seq<nat>)
    requires n >= 1
  {
    var (selected, added) := NewlySelected(w, accepted, n);
    && (|added| >= 2 ==> r.Failure?)
    && (added == [] ==> r == Success((score, accepted)))
    && (|added| == 1 && r.Success? ==> IntervalAround(scorer, accepted, r.value.1, score, r.value.0, selected, added[0], n, lo, hi, fs))
  }

  /**
   * Lines 285-287 of the loop: grow intervals on a fresh array holding the
   * accepted weights, giving the new best score and the grown weights.
   */
  method Grow(scorer: Scorer, w: seq<real>, accepted: seq<real>, score: real, n: nat)
    returns (r: Result<(real, seq<real>), FitError>, ghost lo: int, ghost hi: int, ghost fs: seq<nat>)
    requires n >= 1
    ensures r.Failure? ==> r.error == IndexOutOfRange || r.error == NoToList
    ensures r.Success? ==> r.value.0 >= score && GrownFrom(r.value.1, accepted, n)
    ensures GrowOutcome(scorer, w, accepted, score, n, r, lo, hi, fs)
  {
    var next := new real[|accepted|](j requires 0 <= j < |accepted| => accepted[j]);
    assert next[..] == accepted;
    var grown;
    grown, lo, hi, fs := GrowIntervals(scorer, w, next, score, n);
    if grown.Failure? {
      return Failure(grown.error), lo, hi, fs;
    }
    ghost var (selected, added) := NewlySelected(w, accepted, n);
    if added == [] {
      assert next[..] == accepted;
    } else if |added| == 1 {
      assert IntervalAround(scorer, accepted, next[..], score, grown.value, selected, added[0], n, lo, hi, fs);
    }
    return Success((grown.value, next[..])), lo, hi, fs;
  }

  /**
   * After a growth around a single newly selected feature, the whole interval
   * lo..hi, the feature included, is selected, and the neighbours just outside
   * it are not.
   */
  lemma GrownIntervalSelected(scorer: Scorer, w: seq<real>, accepted: seq<real>, score: real, n: nat,
                              r: Result<(real, seq<real>), FitError>, lo: int, hi: int, fs: seq<nat>)
    requires n >= 1 && GrowOutcome(scorer, w, accepted, score, n, r, lo, hi, fs)
    requires r.Success? && |NewlySelected(w, accepted, n).1| == 1
    ensures 0 <= lo <= hi && hi + 1 < |r.value.1|
    ensures forall i :: lo <= i <= hi ==> r.value.1[i] >= Threshold(n)
    ensures lo == 0 || r.value.1[lo - 1] < Threshold(n)
    ensures r.value.1[hi + 1] < Threshold(n)
  {
    var (selected, added) := NewlySelected(w, accepted, n);
    var f := added[0];
    assert f in added;
    assert f !in fs[|selected|..];
    assert r.value.1[f] == accepted[f];
  }

  /** The state of the iVISSA outer loop between calls: best score, best weights, next unused shuffle. */
  datatype Top = Top(score: real, weights: seq<real>, nextDraw: nat)

  /** Before the first call: the sentinel score and weights 0.5. */
  function Start(nFeatures: nat): Top
  {
    Top(Sentinel, seq(nFeatures, _ => 0.5), 0)
  }

  /** The `_yield_best_weights` call the loop makes from state s. */
  function NextCall(scorer: Scorer, n: nat, draw: Shuffles, s: Top): Refined
    requires n >= 20 && ShufflesFit(draw, |s.weights|, n)
  {
    Yield(scorer, s.weights, n, SelectionQuantile(n), draw, s.nextDraw)
  }

  /**
   * One accepted iteration from s to s': the call from s strictly beats its
   * score, and s' holds the call's weights grown into intervals as
   * `GrowOutcome` describes, a score at least the call's, and the call's next
   * shuffle.
   */
  ghost predicate Accepted(scorer: Scorer, n: nat, draw: Shuffles, s: Top, s': Top)
    requires n >= 20 && ShufflesFit(draw, |s.weights|, n)
  {
    var y := NextCall(scorer, n, draw, s);
    && y.score > s.score && y.weights.Some?
    && s'.nextDraw == y.nextDraw
    && s'.score >= y.score
    && GrownFrom(s'.weights, y.weights.value, n)
    && exists lo, hi, fs :: GrowOutcome(scorer, s.weights, y.weights.value, y.score, n, Success((s'.score, s'.weights)), lo, hi, fs)
  }

  /** A run of accepted iterations of the iVISSA loop from its start. */
  ghost predicate AcceptedTrace(scorer: Scorer, nFeatures: nat, n: nat, draw: Shuffles, trace: seq<Top>)
    requires n >= 20 && ShufflesFit(draw, nFeatures, n)
  {
    && |trace| >= 1 && trace[0] == Start(nFeatures)
    && (forall i :: 0 <= i < |trace| ==> |trace[i].weights| == nFeatures)
    && (forall i :: 0 <= i < |trace| - 1 ==> Accepted(scorer, n, draw, trace[i], trace[i + 1]))
  }

  /** An accepted iteration from the last state extends a trace. */
  lemma TraceExtend(scorer: Scorer, nFeatures: nat, n: nat, draw: Shuffles, trace: seq<Top>, s': Top)
    requires n >= 20 && ShufflesFit(draw, nFeatures, n)
    requires AcceptedTrace(scorer, nFeatures, n, draw, trace) && |s'.weights| == nFeatures
    requires Accepted(scorer, n, draw, trace[|trace| - 1], s')
    ensures AcceptedTrace(scorer, nFeatures, n, draw, trace + [s'])
  {
    var t := trace + [s'];
    forall i | 0 <= i < |t| - 1
      ensures Accepted(scorer, n, draw, t[i], t[i + 1])
    {
      if i < |trace| - 1 {
        assert t[i] == trace[i] && t[i + 1] == trace[i + 1];
      } else {
        assert t[i] == trace[|trace| - 1] && t[i + 1] == s';
      }
    }
  }

  /**
   * Lines 284-287: the call y from state s beat its score, so its weights are
   * grown into intervals and become the next state.
   */
  method AcceptCall(scorer: Scorer, n: nat, draw: Shuffles, s: Top, y: Refined) returns (r: Result<Top, FitError>)
    requires n >= 20 && ShufflesFit(draw, |s.weights|, n)
    requires y == NextCall(scorer, n, draw, s) && y.score > s.score && y.weights.Some?
    ensures r.Failure? ==> r.error == IndexOutOfRange || r.error == NoToList
    ensures r.Success? ==> |r.value.weights| == |s.weights| && Accepted(scorer, n, draw, s, r.value)
  {
    var grown;
    ghost var lo, hi, fs;
    grown, lo, hi, fs := Grow(scorer, s.weights, y.weights.value, y.score, n);
    if grown.Failure? {
      return Failure(grown.error);
    }
    var next := Top(grown.value.0, grown.value.1, y.nextDraw);
    assert GrowOutcome(scorer, s.weights, y.weights.value, y.score, n, Success((next.score, next.weights)), lo, hi, fs);
    return Success(next);
  }

  /**
   * The `while True` loop of `iVISSA._fit`: the VISSA outer loop without early
   * stopping, growing intervals after every accepted refinement. The ghost trace
   * lists the states after each accepted iteration; the loop returns the weights
   * of the first call from the last state that does not beat its score.
   */
  method IntervalLoop(scorer: Scorer, nFeatures: nat, n: nat, draw: Shuffles, fuel: nat)
    returns (r: Result<Option<seq<real>>, FitError>, ghost trace: seq<Top>)
    requires ShufflesFit(draw, nFeatures, n)
    ensures r.Failure? ==> r.error in {FuelExhausted, EmptyTopQuantile, IndexOutOfRange, NoToList}
    ensures r.Failure? && r.error == EmptyTopQuantile <==> fuel >= 1 && n < 20
    ensures n >= 20 ==> AcceptedTrace(scorer, nFeatures, n, draw, trace) && |trace| <= fuel + 1
    ensures r == Failure(FuelExhausted) ==> |trace| == fuel + 1
    ensures r.Success? ==>
      && n >= 20
      && NextCall(scorer, n, draw, trace[|trace| - 1]).score <= trace[|trace| - 1].score
      && r.value == NextCall(scorer, n, draw, trace[|trace| - 1]).weights
    ensures r.Failure? && r.error in {IndexOutOfRange, NoToList} ==>
      && n >= 20
      && NextCall(scorer, n, draw, trace[|trace| - 1]).score > trace[|trace| - 1].score
    ensures r.Success? && r.value.Some? ==> WeightsOk(r.value.value, nFeatures, SelectionQuantile(n))
  {
    var q := SelectionQuantile(n);
    var start := Start(nFeatures);
    var topScore, topWeights, d := start.score, start.weights, start.nextDraw;
    var left: nat := fuel;
    trace := [start];
    while true
      invariant |topWeights| == nFeatures && topScore >= Sentinel
      invariant left <= fuel && (left < fuel ==> n >= 20)
      invariant |trace| == fuel - left + 1 && trace[|trace| - 1] == Top(topScore, topWeights, d)
      invariant n >= 20 ==> AcceptedTrace(scorer, nFeatures, n, draw, trace)
      decreases left
    {
      if left == 0 {
        return Failure(FuelExhausted), trace;
      }
      var y := YieldBestWeights(scorer, topWeights, n, q, draw, d);
      if y.Failure? {
        return Failure(y.error), trace;
      }
      if y.value.score > topScore {
        var grown := AcceptCall(scorer, n, draw, Top(topScore, topWeights, d), y.value);
        if grown.Failure? {
          return Failure(grown.error), trace;
        }
        var next := grown.value;
        TraceExtend(scorer, nFeatures, n, draw, trace, next);
        trace := trace + [next];
        topScore, topWeights, d := next.score, next.weights, next.nextDraw;
      } else {
        return Success(y.value.weights), trace;
      }
      left := left - 1;
    }
  }

  class IVissa {
    const nSubmodels: nat
    /** `weights_`: the weights of the last refinement, possibly None. */
    var weights: Attr<Option<seq<real>>>
    /** `support_`: the mask of selected features. */
    var support: Attr<seq<bool>>

    constructor(nSubmodels: nat)
      ensures this.nSubmodels == nSubmodels
      ensures weights == Unset && support == Unset
    {
      this.nSubmodels := nSubmodels;
      weights := Unset;
      support := Unset;
    }

    /**
     * `_fit(X, y, n_intervals, width)`: the VISSA outer loop without early
     * stopping, growing intervals after every accepted refinement; `weights_` is
     * what the last call returned, the one that did not beat the best score, and
     * the support marks the n_intervals * width features of highest weight. The
     * ghost trace lists the loop's accepted states.
     */
    method Fit(scorer: Scorer, nFeatures: nat, nIntervals: nat, width: nat, draw: Shuffles, fuel: nat)
      returns (err: Option<FitError>, ghost trace: seq<Top>)
      requires ShufflesFit(draw, nFeatures, nSubmodels)
      modifies this
      ensures nSubmodels >= 20 ==> AcceptedTrace(scorer, nFeatures, nSubmodels, draw, trace) && |trace| <= fuel + 1
      ensures err.None? || err == Some(NoWeights) ==>
        && nSubmodels >= 20
        && NextCall(scorer, nSubmodels, draw, trace[|trace| - 1]).score <= trace[|trace| - 1].score
        && weights == Set(NextCall(scorer, nSubmodels, draw, trace[|trace| - 1]).weights)
      ensures err.Some? ==> err.value in {FuelExhausted, EmptyTopQuantile, IndexOutOfRange, NoToList, NoWeights}
      ensures fuel >= 1 && nSubmodels < 20 ==> err == Some(EmptyTopQuantile)
      ensures err.Some? && err.value != NoWeights ==> weights == old(weights) && support == old(support)
      ensures err == Some(NoWeights) ==> weights == Set(None) && support == Set(seq(nFeatures, _ => false))
      ensures err.None? ==>
        && weights.Set? && weights.value.Some?
        && WeightsOk(weights.value.value, nFeatures, SelectionQuantile(nSubmodels))
        && support.Set? && |support.value| == nFeatures
        && CountTrue(support.value) == Min(nIntervals * width, nFeatures)
        && forall i, j :: 0 <= i < nFeatures && 0 <= j < nFeatures && support.value[i] && !support.value[j] ==>
             weights.value.value[i] >= weights.value.value[j]
    {
      var run;
      run, trace := IntervalLoop(scorer, nFeatures, nSubmodels, draw, fuel);
      if run.Failure? {
        return Some(run.error), trace;
      }
      weights := Set(run.value);
      support := Set(seq(nFeatures, _ => false));
      if run.value.None? {
        return Some(NoWeights), trace;
      }
      var mask := SupportMask(run.value.value, nIntervals * width);
      support := Set(mask);
      return None, trace;
    }

    /** `_get_support_mask`: the mask the last completed fit stored, if any. */
    function GetSupportMask(): (r: Result<seq<bool>, FitError>)
      reads this
      ensures r.Success? <==> support.Set?
      ensures r.Success? ==> r.value == support.value
      ensures r.Failure? ==> r.error == NotFitted
    {
      if support.Set? then Success(support.value) else Failure(NotFitted)
    }
  }
}

=== FILE: metrics.dfy ===
/**
 * Pairwise stability scores of the benchmarking: the Deng and Zucknick
 * similarities of two feature selections, the comparison of every pair of runs,
 * and the mean score registered for each feature configuration, method and data
 * set.
 */
module Stability {
  import opened Wrappers
  import opened DataHandling

  /**
   * Why scoring stopped: a data set without meta data, a zero divisor, a run past
   * the selections, an out-of-range threshold, or runs of a cell that selected
   * different numbers of features (no rectangular `np.array` can hold them).
   */
  datatype ScoreError = MissingMeta(dataset: string) | ZeroDivision | IndexError | InvalidThreshold | Ragged

  /** `metric_name`: the name given, or the class name when None is passed. */
  function MetricName(given: Option<string>, className: string): (name: string)
    ensures given.Some? ==> name == given.value
    ensures given.None? ==> name == className
  {
    match given
    case Some(n) => n
    case None => className
  }

  /** A stability score: its name and, for Zucknick's, the correlation threshold. */
  datatype Metric = Deng(name: string) | Zucknick(name: string, threshold: real)

  /** The default `metric_name` of `DengScore`. */
  const DengDefaultName: string := "deng_score"

  /** The default `metric_name` of `ZucknickScore`. */
  const ZucknickDefaultName: string := "zucknick_score"

  /** The default `correlation_threshold` of `ZucknickScore`. */
  const DefaultCorrelationThreshold: real := 0.8

  /**
   * `DengScore(metric_name)`; a call without arguments is
   * `NewDeng(Some(DengDefaultName))`, and None falls back to the class name.
   */
  function NewDeng(given: Option<string>): (m: Metric)
    ensures m.Deng? && m.name == MetricName(given, "DengScore")
  {
    Deng(MetricName(given, "DengScore"))
  }

  /**
   * `ZucknickScore(correlation_threshold, metric_name)`: the threshold must lie in
   * [0, 1]; a call without arguments is
   * `NewZucknick(DefaultCorrelationThreshold, Some(ZucknickDefaultName))`.
   */
  function NewZucknick(threshold: real, given: Option<string>): (r: Result<Metric, ScoreError>)
    ensures r.Success? <==> 0.0 <= threshold <= 1.0
    ensures r.Success? ==>
      r.value.Zucknick? && r.value.threshold == threshold && r.value.name == MetricName(given, "ZucknickScore")
    ensures r.Failure? ==> r.error == InvalidThreshold
  {
    if 0.0 <= threshold <= 1.0 then Success(Zucknick(MetricName(given, "ZucknickScore"), threshold))
    else Failure(InvalidThreshold)
  }

  /** Constructed with their default arguments, the scores carry the documented names and threshold. */
  lemma DefaultMetrics()
    ensures NewDeng(Some(DengDefaultName)) == Deng("deng_score")
    ensures NewZucknick(DefaultCorrelationThreshold, Some(ZucknickDefaultName)) == Success(Zucknick("zucknick_score", 0.8))
  {
  }

  /** The features a selection holds (`np.intersect1d` and `np.setdiff1d` work on these). */
  function Elements(s: seq<nat>): set<nat>
  {
    set x | x in s
  }

  predicate Distinct(s: seq<nat>)
  {
    forall i, j :: 0 <= i < j < |s| ==> s[i] != s[j]
  }

  /** `np.intersect1d(set_1, set_2).size`. */
  function InterSize(s1: seq<nat>, s2: seq<nat>): nat
  {
    |Elements(s1) * Elements(s2)|
  }

  /** A selection has at most as many features as entries, and exactly as many without repeats. */
  lemma {:induction false} ElementsCard(s: seq<nat>)
    ensures |Elements(s)| <= |s|
    ensures Distinct(s) ==> |Elements(s)| == |s|
    decreases |s|
  {
    if s != [] {
      var init := s[..|s| - 1];
      var last := s[|s| - 1];
      ElementsCard(init);
      assert Elements(s) == Elements(init) + {last};
      if Distinct(s) {
        assert Distinct(init);
      }
    }
  }

  lemma {:induction false} SubsetCard(a: set<nat>, b: set<nat>)
    requires a <= b
    ensures |a| <= |b|
    decreases |b|
  {
    if a != {} {
      var x :| x in a;
      SubsetCard(a - {x}, b - {x});
    }
  }

  /** The intersection of two selections is never larger than the first. */
  lemma InterSizeBound(s1: seq<nat>, s2: seq<nat>)
    ensures InterSize(s1, s2) <= |s1|
    ensures InterSize(s1, s2) == InterSize(s2, s1)
  {
    ElementsCard(s1);
    SubsetCard(Elements(s1) * Elements(s2), Elements(s1));
    assert Elements(s1) * Elements(s2) == Elements(s2) * Elements(s1);
  }

  /** n - n²/N vanishes exactly when n is 0 or N. */
  lemma DengDenominator(n: nat, bigN: nat)
    requires bigN > 0
    ensures (n as real - (n * n) as real / bigN as real == 0.0) <==> (n == 0 || n == bigN)
  {
    var e := (n * n) as real / bigN as real;
    assert e * bigN as real == (n * n) as real;
    if n as real - e == 0.0 {
      assert (n as real) * (bigN as real) == (n * n) as real;
      assert n * bigN == n * n;
      assert n * (bigN - n) == 0;
    }
  }

  /**
   * `DengScore.pairwise_sim_func`: (|S1 ∩ S2| - n²/N) / (n - n²/N) with n = |S1|
   * and N the data set's number of wavelengths. The meta lookup raises a
   * KeyError for an unregistered data set, and either division can divide by zero.
   */
  function DengScore(meta: map<string, nat>, dataset: string, s1: seq<nat>, s2: seq<nat>): (r: Result<Score, ScoreError>)
    ensures dataset !in meta ==> r == Failure(MissingMeta(dataset))
    ensures dataset in meta ==> (r.Failure? <==> meta[dataset] == 0 || |s1| == 0 || |s1| == meta[dataset])
    ensures dataset in meta && r.Failure? ==> r.error == ZeroDivision
    ensures r.Success? ==> r.value.Num?
  {
    if dataset !in meta then Failure(MissingMeta(dataset))
    else
      var bigN := meta[dataset];
      var n := |s1|;
      if bigN == 0 then Failure(ZeroDivision)
      else
        var e := (n * n) as real / bigN as real;
        DengDenominator(n, bigN);
        if n as real - e == 0.0 then Failure(ZeroDivision)
        else Success(Num((InterSize(s1, s2) as real - e) / (n as real - e)))
  }

  /** Two equal selections of 0 < n < N distinct features score exactly 1. */
  lemma DengSelf(meta: map<string, nat>, dataset: string, s: seq<nat>)
    requires dataset in meta && 0 < |s| < meta[dataset] && Distinct(s)
    ensures DengScore(meta, dataset, s, s) == Success(Num(1.0))
  {
    ElementsCard(s);
    assert Elements(s) * Elements(s) == Elements(s);
    var n := |s|;
    var e := (n * n) as real / meta[dataset] as real;
    DengDenominator(n, meta[dataset]);
    assert InterSize(s, s) == n;
    assert (n as real - e) / (n as real - e) == 1.0;
  }

  /** Between selections of the same size the Deng score does not depend on the order. */
  lemma DengSymmetric(meta: map<string, nat>, dataset: string, s1: seq<nat>, s2: seq<nat>)
    requires |s1| == |s2|
    ensures DengScore(meta, dataset, s1, s2) == DengScore(meta, dataset, s2, s1)
  {
    InterSizeBound(s1, s2);
  }

  /** The abstract part of Zucknick's correlation term, `np.corrcoef` with the threshold applied. */
  type Correlator = (real, string, seq<nat>, seq<nat>) -> real

  /** `_thresholded_correlation`: the integer 0 when nothing of S2 is outside S1, else a float. */
  datatype Correlation = NoDifference | Correlated(value: real)

  function CorrelationValue(c: Correlation): real
  {
    match c
    case NoDifference => 0.0
    case Correlated(v) => v
  }

  /** The term is the integer 0 exactly when `setdiff1d(support_2, support_1)` is empty. */
  function ThresholdedCorrelation(corr: Correlator, threshold: real, dataset: string, s1: seq<nat>, s2: seq<nat>): (c: Correlation)
    ensures c.NoDifference? <==> Elements(s2) <= Elements(s1)
    ensures c.Correlated? ==> c.value == corr(threshold, dataset, s1, s2)
  {
    if Elements(s2) <= Elements(s1) then NoDifference
    else Correlated(corr(threshold, dataset, s1, s2))
  }

  /**
   * `ZucknickScore.pairwise_sim_func`: (|S1 ∩ S2| + c12 + c21) / (2n - |S1 ∩ S2|).
   * The union is 0 only for an empty S1. Then both correlation terms are the
   * integer 0 when S2 is empty too, and Python's division raises; otherwise c12 is
   * the float 0.0 (a sum over an empty slice) and numpy's division gives NaN.
   */
  function ZucknickScore(meta: map<string, nat>, corr: Correlator, threshold: real, dataset: string,
                         s1: seq<nat>, s2: seq<nat>): (r: Result<Score, ScoreError>)
    ensures dataset !in meta ==> r == Failure(MissingMeta(dataset))
    ensures dataset in meta ==> (r.Failure? <==> s1 == [] && s2 == [])
    ensures dataset in meta && r.Failure? ==> r.error == ZeroDivision
    ensures dataset in meta ==> (r == Success(NaN) <==> s1 == [] && s2 != [])
  {
    if dataset !in meta then Failure(MissingMeta(dataset))
    else
      InterSizeBound(s1, s2);
      var inter := InterSize(s1, s2);
      var union := 2 * |s1| - inter;
      var c12 := ThresholdedCorrelation(corr, threshold, dataset, s1, s2);
      var c21 := ThresholdedCorrelation(corr, threshold, dataset, s2, s1);
      assert s1 == [] ==> Elements(s1) == {};
      if union == 0 then
        assert s1 == [];
        assert s2 != [] ==> s2[0] in Elements(s2);
        if c12.NoDifference? && c21.NoDifference? then Failure(ZeroDivision) else Success(NaN)
      else Success(Num((inter as real + CorrelationValue(c12) + CorrelationValue(c21)) / union as real))
  }

  /** Two equal non-empty selections of distinct features score exactly 1. */
  lemma ZucknickSelf(meta: map<string, nat>, corr: Correlator, threshold: real, dataset: string, s: seq<nat>)
    requires dataset in meta && 0 < |s| && Distinct(s)
    ensures ZucknickScore(meta, corr, threshold, dataset, s, s) == Success(Num(1.0))
  {
    ElementsCard(s);
    assert Elements(s) * Elements(s) == Elements(s);
    var n := |s|;
    assert InterSize(s, s) == n;
    assert (n as real + 0.0 + 0.0) / n as real == 1.0;
  }

  /** Between selections of the same size the Zucknick score does not depend on the order. */
  lemma ZucknickSymmetric(meta: map<string, nat>, corr: Correlator, threshold: real, dataset: string,
                          s1: seq<nat>, s2: seq<nat>)
    requires |s1| == |s2|
    ensures ZucknickScore(meta, corr, threshold, dataset, s1, s2) == ZucknickScore(meta, corr, threshold, dataset, s2, s1)
  {
    InterSizeBound(s1, s2);
    var c12 := ThresholdedCorrelation(corr, threshold, dataset, s1, s2);
    var c21 := ThresholdedCorrelation(corr, threshold, dataset, s2, s1);
    assert CorrelationValue(c12) + CorrelationValue(c21) == CorrelationValue(c21) + CorrelationValue(c12);
  }

  /** What a pairwise comparison sees: the metric, the store's meta data, the correlation, the data set. */
  datatype Context = Context(metric: Metric, meta: map<string, nat>, corr: Correlator, dataset: string)

  /** `self.pairwise_sim_func(pod, set_1, set_2, dataset)` for the metric at hand. */
  function PairwiseSim(ctx: Context, s1: seq<nat>, s2: seq<nat>): Result<Score, ScoreError>
  {
    match ctx.metric
    case Deng(_) => DengScore(ctx.meta, ctx.dataset, s1, s2)
    case Zucknick(_, t) => ZucknickScore(ctx.meta, ctx.corr, t, ctx.dataset, s1, s2)
  }

  /** Both metrics score equal selections of 0 < n < N distinct features 1, and are symmetric. */
  lemma PairwiseSimProperties(ctx: Context, s: seq<nat>, s1: seq<nat>, s2: seq<nat>)
    ensures ctx.dataset in ctx.meta && 0 < |s| < ctx.meta[ctx.dataset] && Distinct(s) ==>
      PairwiseSim(ctx, s, s) == Success(Num(1.0))
    ensures |s1| == |s2| ==> PairwiseSim(ctx, s1, s2) == PairwiseSim(ctx, s2, s1)
  {
    if ctx.dataset in ctx.meta && 0 < |s| < ctx.meta[ctx.dataset] && Distinct(s) {
      match ctx.metric
      case Deng(_) => DengSelf(ctx.meta, ctx.dataset, s);
      case Zucknick(_, t) => ZucknickSelf(ctx.meta, ctx.corr, t, ctx.dataset, s);
    }
    if |s1| == |s2| {
      match ctx.metric
      case Deng(_) => DengSymmetric(ctx.meta, ctx.dataset, s1, s2);
      case Zucknick(_, t) => ZucknickSymmetric(ctx.meta, ctx.corr, t, ctx.dataset, s1, s2);
    }
  }

  /** Row i of `np.triu_indices(r)` from column j on: (i, j), (i, j + 1), ..., (i, r - 1). */
  function RowFrom(i: nat, j: nat, r: nat): seq<(nat, nat)>
    decreases r - j
  {
    if j >= r then [] else [(i, j)] + RowFrom(i, j + 1, r)
  }

  /** Rows i, ..., r - 1 of `np.triu_indices(r)`, row after row. */
  function TriuFrom(i: nat, r: nat): seq<(nat, nat)>
    decreases r - i
  {
    if i >= r then [] else RowFrom(i, i, r) + TriuFrom(i + 1, r)
  }

  /** `np.triu_indices(r)` as pairs (i, j) with i <= j; a size below 1 gives none. */
  function TriuIndices(r: int): seq<(nat, nat)>
  {
    if r <= 0 then [] else TriuFrom(0, r as nat)
  }

  /** The pairs kept by `if dim0[i] != dim1[i]`. */
  function OffDiagonal(ps: seq<(nat, nat)>): (r: seq<(nat, nat)>)
    ensures |r| <= |ps|
  {
    if ps == [] then []
    else (if ps[0].0 != ps[0].1 then [ps[0]] else []) + OffDiagonal(ps[1..])
  }

  lemma {:induction false} OffDiagonalAppend(a: seq<(nat, nat)>, b: seq<(nat, nat)>)
    ensures OffDiagonal(a + b) == OffDiagonal(a) + OffDiagonal(b)
    decreases |a|
  {
    if a == [] {
      assert a + b == b;
    } else {
      var head := if a[0].0 != a[0].1 then [a[0]] else [];
      OffDiagonalAppend(a[1..], b);
      assert (a + b)[0] == a[0];
      assert (a + b)[1..] == a[1..] + b;
      assert OffDiagonal(a + b) == head + OffDiagonal(a[1..] + b);
      assert OffDiagonal(a) == head + OffDiagonal(a[1..]);
    }
  }

  lemma {:induction false} OffDiagonalMembership(ps: seq<(nat, nat)>)
    ensures forall p :: p in OffDiagonal(ps) <==> p in ps && p.0 != p.1
    decreases |ps|
  {
    if ps != [] {
      OffDiagonalMembership(ps[1..]);
      assert ps == [ps[0]] + ps[1..];
    }
  }

  lemma {:induction false} RowFromMembers(i: nat, j: nat, r: nat)
    ensures forall p :: p in RowFrom(i, j, r) <==> p.0 == i && j <= p.1 < r
    decreases r - j
  {
    if j < r {
      RowFromMembers(i, j + 1, r);
    }
  }

  lemma {:induction false} RowFromCount(i: nat, j: nat, r: nat)
    requires i <= j
    ensures |OffDiagonal(RowFrom(i, j, r))| == if j >= r then 0 else if i == j then r - j - 1 else r - j
    decreases r - j
  {
    if j < r {
      RowFromCount(i, j + 1, r);
      OffDiagonalAppend([(i, j)], RowFrom(i, j + 1, r));
      assert OffDiagonal([(i, j)]) == if i == j then [] else [(i, j)] by {
        assert [(i, j)][1..] == [];
      }
    }
  }

  lemma {:induction false} TriuFromMembers(i: nat, r: nat)
    ensures forall p :: p in TriuFrom(i, r) <==> i <= p.0 <= p.1 < r
    decreases r - i
  {
    if i < r {
      var row := RowFrom(i, i, r);
      var rest := TriuFrom(i + 1, r);
      assert TriuFrom(i, r) == row + rest;
      TriuFromMembers(i + 1, r);
      RowFromMembers(i, i, r);
      forall p: (nat, nat)
        ensures p in row + rest <==> i <= p.0 <= p.1 < r
      {
        assert p in row + rest <==> p in row || p in rest;
      }
    }
  }

  lemma {:induction false} TriuFromCount(i: nat, r: nat)
    requires i <= r
    ensures 2 * |OffDiagonal(TriuFrom(i, r))| == (r - i) * (r - i - 1)
    decreases r - i
  {
    if i < r {
      var row := RowFrom(i, i, r);
      var rest := TriuFrom(i + 1, r);
      TriuFromCount(i + 1, r);
      RowFromCount(i, i, r);
      OffDiagonalAppend(row, rest);
      assert TriuFrom(i, r) == row + rest;
      var k := r - i - 1;
      var a := |OffDiagonal(row)|;
      var b := |OffDiagonal(rest)|;
      assert 2 * b == k * (k - 1);
      assert a == k;
      assert |OffDiagonal(TriuFrom(i, r))| == a + b;
      TriangleStep(k);
    }
  }

  lemma TriangleStep(k: int)
    ensures (k + 1) * k == 2 * k + k * (k - 1)
  {
  }

  /**
   * `_pairwise_scoring` compares exactly the pairs of runs i < j < r, each
   * once and never a run with itself: r(r - 1)/2 comparisons.
   */
  lemma ComparedPairs(r: int)
    ensures forall p :: p in OffDiagonal(TriuIndices(r)) <==> p.0 < p.1 < r
    ensures r <= 0 ==> |OffDiagonal(TriuIndices(r))| == 0
    ensures r > 0 ==> 2 * |OffDiagonal(TriuIndices(r))| == r * (r - 1)
  {
    if r <= 0 {
      assert OffDiagonal(TriuIndices(r)) == [];
    } else {
      var ps := TriuFrom(0, r as nat);
      assert TriuIndices(r) == ps;
      OffDiagonalMembership(ps);
      TriuFromMembers(0, r as nat);
      TriuFromCount(0, r as nat);
    }
  }

  /** A pair of runs whose comparison raises: a run past the selections, or a failing score. */
  predicate PairFails(ctx: Context, supports: seq<seq<nat>>, p: (nat, nat))
  {
    p.0 >= |supports| || p.1 >= |supports| || PairwiseSim(ctx, supports[p.0], supports[p.1]).Failure?
  }

  /**
   * The loop over `np.triu_indices(r)`: skips the diagonal, raises IndexError for
   * a run past the selections, stops at the first failing score, and appends
   * every other score to `pairwise_sim` (here `acc`) in order.
   */
  function SimilaritiesFrom(ctx: Context, supports: seq<seq<nat>>, acc: seq<Score>, pairs: seq<(nat, nat)>): Result<seq<Score>, ScoreError>
    decreases |pairs|
  {
    if pairs == [] then Success(acc)
    else
      var p := pairs[0];
      if p.0 == p.1 then SimilaritiesFrom(ctx, supports, acc, pairs[1..])
      else if p.0 >= |supports| || p.1 >= |supports| then Failure(IndexError)
      else match PairwiseSim(ctx, supports[p.0], supports[p.1])
        case Failure(e) => Failure(e)
        case Success(v) => SimilaritiesFrom(ctx, supports, acc + [v], pairs[1..])
  }

  /**
   * The comparisons succeed exactly when no compared pair fails, and then the list
   * holds one score per compared pair, in the order of the pairs.
   */
  lemma {:induction false} SimilaritiesContents(ctx: Context, supports: seq<seq<nat>>, acc: seq<Score>, pairs: seq<(nat, nat)>)
    ensures var r := SimilaritiesFrom(ctx, supports, acc, pairs);
      var od := OffDiagonal(pairs);
      && (r.Success? <==> forall k :: 0 <= k < |od| ==> !PairFails(ctx, supports, od[k]))
      && (r.Success? ==> |r.value| == |acc| + |od| && r.value[..|acc|] == acc)
      && (r.Success? ==> forall k :: 0 <= k < |od| ==>
            PairwiseSim(ctx, supports[od[k].0], supports[od[k].1]) == Success(r.value[|acc| + k]))
    decreases |pairs|
  {
    if pairs != [] {
      var p := pairs[0];
      var od := OffDiagonal(pairs);
      var rest := OffDiagonal(pairs[1..]);
      if p.0 == p.1 {
        SimilaritiesContents(ctx, supports, acc, pairs[1..]);
        assert od == rest;
      } else {
        assert od == [p] + rest;
        if p.0 < |supports| && p.1 < |supports| && PairwiseSim(ctx, supports[p.0], supports[p.1]).Success? {
          var v := PairwiseSim(ctx, supports[p.0], supports[p.1]).value;
          SimilaritiesContents(ctx, supports, acc + [v], pairs[1..]);
          var r := SimilaritiesFrom(ctx, supports, acc, pairs);
          if r.Success? {
            assert r.value[..|acc| + 1] == acc + [v] by {
              assert r.value[..|acc| + 1][..|acc|] == r.value[..|acc|];
            }
            assert r.value[..|acc|] == (acc + [v])[..|acc|];
            assert r.value[|acc|] == v by {
              assert r.value[..|acc| + 1][|acc|] == r.value[|acc|];
            }
            forall k | 0 <= k < |od|
              ensures PairwiseSim(ctx, supports[od[k].0], supports[od[k].1]) == Success(r.value[|acc| + k])
            {
              if k > 0 {
                assert od[k] == rest[k - 1];
              }
            }
          } else {
            var k :| 0 <= k < |rest| && PairFails(ctx, supports, rest[k]);
            assert od[k + 1] == rest[k];
          }
        } else {
          assert PairFails(ctx, supports, od[0]);
        }
      }
    }
  }

  /** `np.mean`: NaN for no scores or for any NaN score, the average otherwise. */
  function Mean(xs: seq<Score>): (m: Score)
    ensures m.Num? <==> xs != [] && forall k :: 0 <= k < |xs| ==> xs[k].Num?
  {
    if xs != [] && forall k :: 0 <= k < |xs| ==> xs[k].Num? then Num(Total(xs) / |xs| as real) else NaN
  }

  /** The sum of the numbers among the scores. */
  function Total(xs: seq<Score>): real
  {
    if xs == [] then 0.0 else Total(xs[..|xs| - 1]) + (match xs[|xs| - 1] case Num(v) => v case NaN => 0.0)
  }

  lemma {:induction false} TotalConstant(xs: seq<Score>, c: real)
    requires forall k :: 0 <= k < |xs| ==> xs[k] == Num(c)
    ensures Total(xs) == |xs| as real * c
    decreases |xs|
  {
    if xs != [] {
      TotalConstant(xs[..|xs| - 1], c);
    }
  }

  /** The mean of equal scores is that score. */
  lemma MeanConstant(xs: seq<Score>, c: real)
    requires xs != [] && forall k :: 0 <= k < |xs| ==> xs[k] == Num(c)
    ensures Mean(xs) == Num(c)
  {
    TotalConstant(xs, c);
  }

  /** The selections of the runs for a method, a feature configuration and a data set. */
  type Selections = (string, nat, string) -> seq<seq<nat>>

  /** Everything `_pairwise_scoring` reads: the metric, the store's meta data and runs, the selections. */
  datatype Env = Env(metric: Metric, meta: map<string, nat>, nRuns: int, corr: Correlator, selections: Selections)

  /** All runs selected the same number of features, so `np.array` of them is a matrix. */
  predicate Rectangular(supports: seq<seq<nat>>)
  {
    forall k :: 0 <= k < |supports| ==> |supports[k]| == |supports[0]|
  }

  /**
   * The mean score of one cell (method, data set, feature configuration), or why
   * it raised: runs of different sizes fail to convert to an array before any
   * pair is compared.
   */
  function CellScore(env: Env, descriptor: nat, methodName: string, dataset: string): Result<Score, ScoreError>
  {
    var ctx := Context(env.metric, env.meta, env.corr, dataset);
    var supports := env.selections(methodName, descriptor, dataset);
    if !Rectangular(supports) then Failure(Ragged)
    else match SimilaritiesFrom(ctx, supports, [], TriuIndices(env.nRuns))
      case Failure(e) => Failure(e)
      case Success(xs) => Success(Mean(xs))
  }

  /**
   * Perfect stability: when every run selected the same 0 < n < N distinct
   * features and there are at least two runs, the registered score is 1.
   */
  lemma {:induction false} StableSelectionsScoreOne(env: Env, descriptor: nat, methodName: string, dataset: string, s: seq<nat>)
    requires dataset in env.meta && 0 < |s| < env.meta[dataset] && Distinct(s)
    requires env.nRuns >= 2 && |env.selections(methodName, descriptor, dataset)| >= env.nRuns
    requires forall k :: 0 <= k < |env.selections(methodName, descriptor, dataset)| ==> env.selections(methodName, descriptor, dataset)[k] == s
    ensures CellScore(env, descriptor, methodName, dataset) == Success(Num(1.0))
  {
    var ctx := Context(env.metric, env.meta, env.corr, dataset);
    var supports := env.selections(methodName, descriptor, dataset);
    var pairs := TriuIndices(env.nRuns);
    var od := OffDiagonal(pairs);
    ComparedPairs(env.nRuns);
    PairwiseSimProperties(ctx, s, s, s);
    SimilaritiesContents(ctx, supports, [], pairs);
    forall k | 0 <= k < |od|
      ensures !PairFails(ctx, supports, od[k])
    {
      assert od[k] in od;
    }
    var xs := SimilaritiesFrom(ctx, supports, [], pairs).value;
    forall k | 0 <= k < |xs|
      ensures xs[k] == Num(1.0)
    {
      assert od[k] in od;
    }
    assert (0, 1) in od;
    MeanConstant(xs, 1.0);
  }

  /** The key `_register_stability` writes for a cell. */
  function CellKey(env: Env, descriptor: nat, methodName: string, dataset: string): (string, string, nat, string)
  {
    (methodName, dataset, descriptor, env.metric.name)
  }

  /** The stability table so far, and the error that stopped the scoring, if one did. */
  datatype Progress = Progress(table: map<(string, string, nat, string), Score>, error: Option<ScoreError>)

  /** The innermost loop: every data set in order, stopping at the first cell that raises. */
  function ScoreDatasets(env: Env, descriptor: nat, methodName: string, datasets: seq<string>,
                         table: map<(string, string, nat, string), Score>): Progress
    decreases |datasets|
  {
    if datasets == [] then Progress(table, None)
    else match CellScore(env, descriptor, methodName, datasets[0])
      case Failure(e) => Progress(table, Some(e))
      case Success(v) =>
        ScoreDatasets(env, descriptor, methodName, datasets[1..], table[CellKey(env, descriptor, methodName, datasets[0]) := v])
  }

  /** The middle loop: every method in order. */
  function ScoreMethods(env: Env, descriptor: nat, methods: seq<string>, datasets: seq<string>,
                        table: map<(string, string, nat, string), Score>): Progress
    decreases |methods|
  {
    if methods == [] then Progress(table, None)
    else
      var p := ScoreDatasets(env, descriptor, methods[0], datasets, table);
      if p.error.Some? then p else ScoreMethods(env, descriptor, methods[1..], datasets, p.table)
  }

  /** The outer loop: every feature configuration in order. */
  function ScoreDescriptors(env: Env, descriptors: seq<nat>, methods: seq<string>, datasets: seq<string>,
                            table: map<(string, string, nat, string), Score>): Progress
    decreases |descriptors|
  {
    if descriptors == [] then Progress(table, None)
    else
      var p := ScoreMethods(env, descriptors[0], methods, datasets, table);
      if p.error.Some? then p else ScoreDescriptors(env, descriptors[1..], methods, datasets, p.table)
  }

  /** A cell of the loops: a feature configuration, a method and a data set from the lists. */
  predicate IsCell(key: (string, string, nat, string), env: Env, descriptors: seq<nat>, methods: seq<string>, datasets: seq<string>)
  {
    key.3 == env.metric.name && key.2 in descriptors && key.0 in methods && key.1 in datasets
  }

  /** The key holds the mean score of its cell. */
  predicate Holds(env: Env, table: map<(string, string, nat, string), Score>, key: (string, string, nat, string))
  {
    key in table && key.3 == env.metric.name && CellScore(env, key.2, key.0, key.1) == Success(table[key])
  }

  /**
   * Scoring only adds keys, and every key it adds or changes is a cell of the
   * lists holding that cell's mean score.
   */
  ghost predicate Extends(env: Env, descriptors: seq<nat>, methods: seq<string>, datasets: seq<string>,
                          before: map<(string, string, nat, string), Score>, after: map<(string, string, nat, string), Score>)
  {
    && (forall key :: key in before ==> key in after)
    && (forall key :: key in after && (key !in before || after[key] != before[key]) ==>
          IsCell(key, env, descriptors, methods, datasets) && Holds(env, after, key))
  }

  /**
   * The innermost loop extends the table; it stops with an error exactly when a
   * data set's cell raises, and otherwise every data set's cell holds its score.
   */
  lemma {:induction false} ScoreDatasetsCorrect(env: Env, descriptor: nat, methodName: string, datasets: seq<string>,
                                                table: map<(string, string, nat, string), Score>)
    ensures var p := ScoreDatasets(env, descriptor, methodName, datasets, table);
      && Extends(env, [descriptor], [methodName], datasets, table, p.table)
      && (p.error.None? <==> forall ds :: ds in datasets ==> CellScore(env, descriptor, methodName, ds).Success?)
      && (p.error.None? ==> forall ds :: ds in datasets ==> Holds(env, p.table, CellKey(env, descriptor, methodName, ds)))
      && (forall key :: Holds(env, table, key) ==> Holds(env, p.table, key))
    decreases |datasets|
  {
    if datasets != [] {
      var cell := CellScore(env, descriptor, methodName, datasets[0]);
      if cell.Success? {
        var key := CellKey(env, descriptor, methodName, datasets[0]);
        var next := table[key := cell.value];
        ScoreDatasetsCorrect(env, descriptor, methodName, datasets[1..], next);
        var p := ScoreDatasets(env, descriptor, methodName, datasets, table);
        assert p == ScoreDatasets(env, descriptor, methodName, datasets[1..], next);
        assert Holds(env, next, key);
        forall k | Holds(env, table, k)
          ensures Holds(env, next, k)
        {
        }
        assert forall ds :: ds in datasets <==> ds == datasets[0] || ds in datasets[1..];
      }
    }
  }

  /** The middle loop: the same guarantees over methods × data sets. */
  lemma {:induction false} ScoreMethodsCorrect(env: Env, descriptor: nat, methods: seq<string>, datasets: seq<string>,
                                               table: map<(string, string, nat, string), Score>)
    ensures var p := ScoreMethods(env, descriptor, methods, datasets, table);
      && Extends(env, [descriptor], methods, datasets, table, p.table)
      && (p.error.None? <==> forall m, ds :: m in methods && ds in datasets ==> CellScore(env, descriptor, m, ds).Success?)
      && (p.error.None? ==> forall m, ds :: m in methods && ds in datasets ==> Holds(env, p.table, CellKey(env, descriptor, m, ds)))
      && (forall key :: Holds(env, table, key) ==> Holds(env, p.table, key))
    decreases |methods|
  {
    if methods != [] {
      var q := ScoreDatasets(env, descriptor, methods[0], datasets, table);
      ScoreDatasetsCorrect(env, descriptor, methods[0], datasets, table);
      assert forall m :: m in methods <==> m == methods[0] || m in methods[1..];
      if q.error.None? {
        ScoreMethodsCorrect(env, descriptor, methods[1..], datasets, q.table);
      }
    }
  }

  /** The outer loop: the same guarantees over every cell. */
  lemma {:induction false} ScoreDescriptorsCorrect(env: Env, descriptors: seq<nat>, methods: seq<string>, datasets: seq<string>,
                                                   table: map<(string, string, nat, string), Score>)
    ensures var p := ScoreDescriptors(env, descriptors, methods, datasets, table);
      && Extends(env, descriptors, methods, datasets, table, p.table)
      && (p.error.None? <==> forall d, m, ds :: d in descriptors && m in methods && ds in datasets ==>
            CellScore(env, d, m, ds).Success?)
      && (p.error.None? ==> forall d, m, ds :: d in descriptors && m in methods && ds in datasets ==>
            Holds(env, p.table, CellKey(env, d, m, ds)))
    decreases |descriptors|
  {
    if descriptors != [] {
      var q := ScoreMethods(env, descriptors[0], methods, datasets, table);
      ScoreMethodsCorrect(env, descriptors[0], methods, datasets, table);
      assert forall d :: d in descriptors <==> d == descriptors[0] || d in descriptors[1..];
      if q.error.None? {
        ScoreDescriptorsCorrect(env, descriptors[1..], methods, datasets, q.table);
      }
    }
  }

  /**
   * The comparisons of one cell, as the loop over `np.triu_indices(r)` does
   * them: the result is the specification's, and the compared pairs are i < j < r.
   */
  method PairwiseSimilarities(ctx: Context, supports: seq<seq<nat>>, r: int) returns (sims: Result<seq<Score>, ScoreError>)
    ensures sims == SimilaritiesFrom(ctx, supports, [], TriuIndices(r))
  {
    var pairs := TriuIndices(r);
    var acc: seq<Score> := [];
    for k := 0 to |pairs|
      invariant SimilaritiesFrom(ctx, supports, acc, pairs[k..]) == SimilaritiesFrom(ctx, supports, [], pairs)
    {
      assert pairs[k..][1..] == pairs[k + 1..];
      var p := pairs[k];
      if p.0 != p.1 {
        if p.0 >= |supports| || p.1 >= |supports| {
          return Failure(IndexError);
        }
        var sim := PairwiseSim(ctx, supports[p.0], supports[p.1]);
        if sim.Failure? {
          return Failure(sim.error);
        }
        acc := acc + [sim.value];
      }
    }
    return Success(acc);
  }

  /** The innermost loop over data sets, registering each cell's mean score. */
  method ScoreCells(env: Env, pod: DataHandler, descriptor: nat, methodName: string, datasets: seq<string>)
    returns (err: Option<ScoreError>)
    modifies pod
    ensures Progress(pod.stability, err) == ScoreDatasets(env, descriptor, methodName, datasets, old(pod.stability))
    ensures pod.Config() == old(pod.Config())
  {
    for c := 0 to |datasets|
      invariant ScoreDatasets(env, descriptor, methodName, datasets[c..], pod.stability) ==
        ScoreDatasets(env, descriptor, methodName, datasets, old(pod.stability))
      invariant pod.Config() == old(pod.Config())
    {
      assert datasets[c..][1..] == datasets[c + 1..];
      var ctx := Context(env.metric, env.meta, env.corr, datasets[c]);
      var supports := env.selections(methodName, descriptor, datasets[c]);
      if !Rectangular(supports) {
        return Some(Ragged);
      }
      var sims := PairwiseSimilarities(ctx, supports, env.nRuns);
      if sims.Failure? {
        return Some(sims.error);
      }
      var score := Mean(sims.value);
      pod.RegisterStability(datasets[c], methodName, descriptor, env.metric.name, score);
    }
    return None;
  }

  /** The middle loop over methods. */
  method ScoreMethodsLoop(env: Env, pod: DataHandler, descriptor: nat, methods: seq<string>, datasets: seq<string>)
    returns (err: Option<ScoreError>)
    modifies pod
    ensures Progress(pod.stability, err) == ScoreMethods(env, descriptor, methods, datasets, old(pod.stability))
    ensures pod.Config() == old(pod.Config())
  {
    for b := 0 to |methods|
      invariant ScoreMethods(env, descriptor, methods[b..], datasets, pod.stability) ==
        ScoreMethods(env, descriptor, methods, datasets, old(pod.stability))
      invariant pod.Config() == old(pod.Config())
    {
      assert methods[b..][1..] == methods[b + 1..];
      err := ScoreCells(env, pod, descriptor, methods[b], datasets);
      if err.Some? {
        return;
      }
    }
    return None;
  }

  /**
   * `_pairwise_scoring(pod)`: for every feature configuration, method and data
   * set of the store, in that nesting, registers the mean pairwise score of the
   * runs' selections under the metric's name; an exception stops it with the
   * cells scored so far registered.
   */
  method PairwiseScoring(metric: Metric, pod: DataHandler, corr: Correlator, selections: Selections)
    returns (err: Option<ScoreError>)
    modifies pod
    ensures Progress(pod.stability, err) ==
      ScoreDescriptors(Env(metric, old(pod.meta), old(pod.nRuns), corr, selections),
                       old(pod.featureDescriptors), old(pod.methods), old(pod.datasets), old(pod.stability))
    ensures pod.Config() == old(pod.Config())
  {
    var env := Env(metric, pod.meta, pod.nRuns, corr, selections);
    var descriptors := pod.featureDescriptors;
    var methods := pod.methods;
    var datasets := pod.datasets;
    for a := 0 to |descriptors|
      invariant ScoreDescriptors(env, descriptors[a..], methods, datasets, pod.stability) ==
        ScoreDescriptors(env, descriptors, methods, datasets, old(pod.stability))
      invariant pod.Config() == old(pod.Config())
    {
      assert descriptors[a..][1..] == descriptors[a + 1..];
      err := ScoreMethodsLoop(env, pod, descriptors[a], methods, datasets);
      if err.Some? {
        return;
      }
    }
    return None;
  }
}

=== FILE: numerics.dfy ===
/** Counting and rounding helpers shared by the VISSA model. */
module Numerics {

  /** numpy's `round` on a float: round half to even (banker's rounding). */
  function RoundHalfEven(x: real): (r: int)
    ensures x - 0.5 <= r as real <= x + 0.5
    ensures (r as real - x == 0.5 || x - r as real == 0.5) ==> r % 2 == 0
  {
    var f := x.Floor;
    var d := x - f as real;
    if d < 0.5 then f
    else if d > 0.5 then f + 1
    else if f % 2 == 0 then f
    else f + 1
  }

  /** The two properties above single out one integer: numpy's rounding is fully specified by them. */
  lemma RoundHalfEvenUnique(x: real, k: int)
    requires x - 0.5 <= k as real <= x + 0.5
    requires (k as real - x == 0.5 || x - k as real == 0.5) ==> k % 2 == 0
    ensures RoundHalfEven(x) == k
  {
  }

  function Clamp(a: int, lo: int, hi: int): (r: int)
    requires lo <= hi
    ensures lo <= r <= hi
    ensures lo <= a <= hi ==> r == a
  {
    if a < lo then lo else if a > hi then hi else a
  }

  /** Number of true cells of a boolean row (numpy's sum over a mask). */
  function CountTrue(s: seq<bool>): (c: nat)
    ensures c <= |s|
  {
    if s == [] then 0 else CountTrue(s[..|s| - 1]) + (if s[|s| - 1] then 1 else 0)
  }

  lemma {:induction false} CountTrueAppend(s: seq<bool>, t: seq<bool>)
    ensures CountTrue(s + t) == CountTrue(s) + CountTrue(t)
    decreases |t|
  {
    if t == [] {
      assert s + t == s;
    } else {
      assert (s + t)[..|s + t| - 1] == s + t[..|t| - 1];
      CountTrueAppend(s, t[..|t| - 1]);
    }
  }

  /** 0, 1, ..., n - 1 (numpy's `arange(n)`). */
  function Range(n: nat): (r: seq<nat>)
    ensures |r| == n
    ensures forall i :: 0 <= i < n ==> r[i] == i
  {
    if n == 0 then [] else Range(n - 1) + [n - 1]
  }

  predicate AllBelow(s: seq<nat>, bound: nat)
  {
    forall i :: 0 <= i < |s| ==> s[i] < bound
  }

  /** How many of the positions `idx` are true in `mask` (`np.sum(mask[idx])`). */
  function CountAt(mask: seq<bool>, idx: seq<nat>): (c: nat)
    requires AllBelow(idx, |mask|)
    ensures c <= |idx|
  {
    if idx == [] then 0
    else CountAt(mask, idx[..|idx| - 1]) + (if mask[idx[|idx| - 1]] then 1 else 0)
  }

  lemma {:induction false} CountAtAppend(mask: seq<bool>, s: seq<nat>, t: seq<nat>)
    requires AllBelow(s, |mask|) && AllBelow(t, |mask|)
    ensures AllBelow(s + t, |mask|)
    ensures CountAt(mask, s + t) == CountAt(mask, s) + CountAt(mask, t)
    decreases |t|
  {
    assert AllBelow(s + t, |mask|);
    if t == [] {
      assert s + t == s;
    } else {
      assert (s + t)[..|s + t| - 1] == s + t[..|t| - 1];
      CountAtAppend(mask, s, t[..|t| - 1]);
    }
  }

  /** Taking one position out of the list removes its contribution. */
  lemma CountAtRemove(mask: seq<bool>, t: seq<nat>, i: nat)
    requires AllBelow(t, |mask|) && i < |t|
    ensures AllBelow(t[..i] + t[i + 1..], |mask|)
    ensures CountAt(mask, t) == CountAt(mask, t[..i] + t[i + 1..]) + (if mask[t[i]] then 1 else 0)
  {
    assert t == t[..i] + [t[i]] + t[i + 1..];
    assert AllBelow(t[..i], |mask|) && AllBelow(t[i + 1..], |mask|);
    CountAtAppend(mask, t[..i], [t[i]]);
    CountAtAppend(mask, t[..i] + [t[i]], t[i + 1..]);
    CountAtAppend(mask, t[..i], t[i + 1..]);
    assert [t[i]][..0] == [];
  }

  lemma MultisetRemove<T>(t: seq<T>, i: nat)
    requires i < |t|
    ensures multiset(t[..i] + t[i + 1..]) == multiset(t) - multiset{t[i]}
  {
    assert t == t[..i] + [t[i]] + t[i + 1..];
    assert multiset(t) == multiset(t[..i]) + multiset{t[i]} + multiset(t[i + 1..]);
  }

  /** Counting the positions of a row depends only on the multiset of positions. */
  lemma {:induction false} CountAtPermutation(mask: seq<bool>, s: seq<nat>, t: seq<nat>)
    requires AllBelow(s, |mask|) && AllBelow(t, |mask|)
    requires multiset(s) == multiset(t)
    ensures CountAt(mask, s) == CountAt(mask, t)
    decreases |s|
  {
    if s == [] {
      assert |t| == |multiset(t)| == 0;
    } else {
      var x := s[|s| - 1];
      var s' := s[..|s| - 1];
      MultisetRemove(s, |s| - 1);
      assert s[..|s| - 1] + s[|s|..] == s';
      assert x in multiset(t);
      var i :| 0 <= i < |t| && t[i] == x;
      var t' := t[..i] + t[i + 1..];
      MultisetRemove(t, i);
      CountAtRemove(mask, t, i);
      CountAtPermutation(mask, s', t');
    }
  }

  /** Counting over every position 0 .. |mask| - 1 counts the whole row. */
  lemma {:induction false} CountAtRange(mask: seq<bool>)
    ensures AllBelow(Range(|mask|), |mask|)
    ensures CountAt(mask, Range(|mask|)) == CountTrue(mask)
    decreases |mask|
  {
    if mask != [] {
      var m := mask[..|mask| - 1];
      CountAtRange(m);
      var r := Range(|m|);
      assert Range(|mask|) == r + [|m|];
      assert Range(|mask|)[..|mask| - 1] == r;
      CountAtPrefixMask(mask, m, r);
    }
  }

  /** Positions that fall inside a prefix count the same on the prefix and on the row. */
  lemma {:induction false} CountAtPrefixMask(mask: seq<bool>, m: seq<bool>, idx: seq<nat>)
    requires m <= mask
    requires AllBelow(idx, |m|)
    ensures AllBelow(idx, |mask|)
    ensures CountAt(mask, idx) == CountAt(m, idx)
    decreases |idx|
  {
    if idx != [] {
      CountAtPrefixMask(mask, m, idx[..|idx| - 1]);
    }
  }

  /** Strictly increasing positions 0 <= i < |m| with m[i] (numpy's `nonzero(m)[0]`). */
  function IndicesWhere(m: seq<bool>): (r: seq<nat>)
    ensures forall v: nat :: v in r <==> v < |m| && m[v]
    ensures forall i, j :: 0 <= i < j < |r| ==> r[i] < r[j]
    ensures AllBelow(r, |m|)
  {
    if m == [] then []
    else
      var prev := IndicesWhere(m[..|m| - 1]);
      assert forall v :: v in prev ==> v < |m| - 1;
      prev + (if m[|m| - 1] then [|m| - 1] else [])
  }

  function Sum(s: seq<real>): real
  {
    if s == [] then 0.0 else Sum(s[..|s| - 1]) + s[|s| - 1]
  }

  lemma {:induction false} SumBounds(s: seq<real>, lo: real, hi: real)
    requires forall i :: 0 <= i < |s| ==> lo <= s[i] <= hi
    ensures |s| as real * lo <= Sum(s) <= |s| as real * hi
    decreases |s|
  {
    if s != [] {
      SumBounds(s[..|s| - 1], lo, hi);
    }
  }
}

=== FILE: ranking.dfy ===
/**
 * Ranking of scored items: Python's stable `sorted(..., key=lambda x: -x[0])` on
 * (score, index) pairs listed by index, and the top-k support mask built from
 * `argsort(-weights)[:k]`.
 */
module Ranking {
  import opened Numerics

  datatype Scored = Scored(score: real, index: nat)

  /** `a` precedes `b` in a stable descending sort of pairs listed in index order. */
  predicate Before(a: Scored, b: Scored)
  {
    a.score > b.score || (a.score == b.score && a.index < b.index)
  }

  predicate SortedBefore(s: seq<Scored>)
  {
    forall i, j :: 0 <= i < j < |s| ==> Before(s[i], s[j])
  }

  predicate IndicesIncreasing(s: seq<Scored>)
  {
    forall i, j :: 0 <= i < j < |s| ==> s[i].index < s[j].index
  }

  /** The pairs `(scores[i], i)`, as `_evaluate_submodels` returns them. */
  function Enumerate(scores: seq<real>): (r: seq<Scored>)
    ensures |r| == |scores|
    ensures forall i :: 0 <= i < |r| ==> r[i] == Scored(scores[i], i)
  {
    seq(|scores|, i requires 0 <= i < |scores| => Scored(scores[i], i))
  }

  /** Insert x after every pair whose score is at least x's score. */
  function InsertDescending(s: seq<Scored>, x: Scored): (r: seq<Scored>)
    ensures |r| == |s| + 1
  {
    if s == [] then [x]
    else if s[0].score >= x.score then [s[0]] + InsertDescending(s[1..], x)
    else [x] + s
  }

  /** Insertion adds exactly x. */
  lemma {:induction false} InsertDescendingPermutes(s: seq<Scored>, x: Scored)
    ensures multiset(InsertDescending(s, x)) == multiset(s) + multiset{x}
    decreases |s|
  {
    if s != [] && s[0].score >= x.score {
      InsertDescendingPermutes(s[1..], x);
      assert s == [s[0]] + s[1..];
    }
  }

  /** Insertion sort by descending score; later pairs go after earlier pairs of equal score. */
  function SortDescending(s: seq<Scored>): (r: seq<Scored>)
    ensures |r| == |s|
  {
    if s == [] then []
    else InsertDescending(SortDescending(s[..|s| - 1]), s[|s| - 1])
  }

  /** The sort is a permutation of its input. */
  lemma {:induction false} SortDescendingPermutes(s: seq<Scored>)
    ensures multiset(SortDescending(s)) == multiset(s)
    decreases |s|
  {
    if s != [] {
      SortDescendingPermutes(s[..|s| - 1]);
      InsertDescendingPermutes(SortDescending(s[..|s| - 1]), s[|s| - 1]);
      assert s == s[..|s| - 1] + [s[|s| - 1]];
    }
  }

  lemma {:induction false} InsertDescendingSorted(s: seq<Scored>, x: Scored)
    requires SortedBefore(s)
    requires forall y :: y in s ==> y.index < x.index
    ensures SortedBefore(InsertDescending(s, x))
    decreases |s|
  {
    if s != [] && s[0].score >= x.score {
      var rest := s[1..];
      InsertDescendingSorted(rest, x);
      InsertDescendingPermutes(rest, x);
      var r := InsertDescending(rest, x);
      forall y | y in r
        ensures Before(s[0], y)
      {
        assert y in multiset(r);
        if y != x {
          assert y in multiset(rest);
          var j :| 0 <= j < |rest| && rest[j] == y;
          assert s[1 + j] == y;
        }
      }
      assert InsertDescending(s, x) == [s[0]] + r;
    }
  }

  /**
   * Sorting pairs that are listed by increasing index yields the order
   * "higher score first, equal scores by increasing index", which is what the
   * stable `sorted` with key `-score` returns.
   */
  lemma {:induction false} SortDescendingSorted(s: seq<Scored>)
    requires IndicesIncreasing(s)
    ensures SortedBefore(SortDescending(s))
    decreases |s|
  {
    if s != [] {
      var init := s[..|s| - 1];
      var x := s[|s| - 1];
      SortDescendingSorted(init);
      SortDescendingPermutes(init);
      var sorted := SortDescending(init);
      forall y | y in sorted
        ensures y.index < x.index
      {
        assert y in multiset(sorted);
        assert y in multiset(init);
        var j :| 0 <= j < |init| && init[j] == y;
      }
      InsertDescendingSorted(sorted, x);
    }
  }

  /** Every pair of the ranking of `Enumerate(w)` is `(w[i], i)` for one feature i. */
  lemma RankedElement(w: seq<real>, ranked: seq<Scored>, t: nat)
    requires multiset(ranked) == multiset(Enumerate(w))
    requires t < |ranked|
    ensures ranked[t].index < |w| && ranked[t] == Scored(w[ranked[t].index], ranked[t].index)
  {
    assert ranked[t] in multiset(Enumerate(w));
    var i :| 0 <= i < |w| && Enumerate(w)[i] == ranked[t];
  }

  /** Every feature has a place in the ranking. */
  lemma RankedComplete(w: seq<real>, ranked: seq<Scored>, i: nat)
    requires multiset(ranked) == multiset(Enumerate(w))
    requires i < |w|
    ensures exists t :: 0 <= t < |ranked| && ranked[t].index == i
  {
    assert Enumerate(w)[i] in multiset(ranked);
    var t :| 0 <= t < |ranked| && ranked[t] == Enumerate(w)[i];
  }

  /** No feature appears twice in the ranking. */
  lemma RankedDistinct(w: seq<real>, ranked: seq<Scored>, a: nat, b: nat)
    requires multiset(ranked) == multiset(Enumerate(w)) && SortedBefore(ranked)
    requires a < b < |ranked|
    ensures ranked[a].index != ranked[b].index
  {
    RankedElement(w, ranked, a);
    RankedElement(w, ranked, b);
    assert Before(ranked[a], ranked[b]);
  }

  function Min(a: int, b: int): int
  {
    if a < b then a else b
  }

  lemma CountTrueSet(s: seq<bool>, j: nat)
    requires j < |s| && !s[j]
    ensures CountTrue(s[j := true]) == CountTrue(s) + 1
  {
    assert s == s[..j] + [false] + s[j + 1..];
    assert s[j := true] == s[..j] + [true] + s[j + 1..];
    CountTrueAppend(s[..j] + [false], s[j + 1..]);
    CountTrueAppend(s[..j] + [true], s[j + 1..]);
    CountTrueAppend(s[..j], [false]);
    CountTrueAppend(s[..j], [true]);
    assert [true][..0] == [] && [false][..0] == [];
  }

  /**
   * `support = zeros(f); support[argsort(-w)[:k]] = True`: exactly min(k, f)
   * features are selected, and no unselected feature outweighs a selected one.
   */
  method SupportMask(w: seq<real>, k: nat) returns (mask: seq<bool>)
    ensures |mask| == |w|
    ensures CountTrue(mask) == Min(k, |w|)
    ensures forall i, j :: 0 <= i < |w| && 0 <= j < |w| && mask[i] && !mask[j] ==> w[i] >= w[j]
  {
    var ranked := SortDescending(Enumerate(w));
    SortDescendingSorted(Enumerate(w));
    SortDescendingPermutes(Enumerate(w));
    var m := Min(k, |w|);
    mask := seq(|w|, _ => false);
    assert mask == seq(|w|, _ => false);
    CountFalseRow(|w|);
    var t := 0;
    while t < m
      invariant 0 <= t <= m
      invariant CountTrue(mask) == t
      invariant MarksTop(w, ranked, mask, t)
    {
      var j := ranked[t].index;
      MarkNext(w, ranked, mask, t);
      mask := mask[j := true];
      t := t + 1;
    }
    TopRankedOutweigh(w, ranked, m, mask);
  }

  /** The mask marks exactly the features of the first t places of the ranking. */
  ghost predicate MarksTop(w: seq<real>, ranked: seq<Scored>, mask: seq<bool>, t: nat)
  {
    && |mask| == |w| && t <= |ranked|
    && forall j :: 0 <= j < |w| ==> (mask[j] <==> exists s :: 0 <= s < t && ranked[s].index == j)
  }

  /** Marking the feature in place t adds one new mark and extends the marked places by one. */
  lemma MarkNext(w: seq<real>, ranked: seq<Scored>, mask: seq<bool>, t: nat)
    requires multiset(ranked) == multiset(Enumerate(w)) && SortedBefore(ranked)
    requires t < |ranked| && MarksTop(w, ranked, mask, t)
    ensures ranked[t].index < |w| && !mask[ranked[t].index]
    ensures CountTrue(mask[ranked[t].index := true]) == CountTrue(mask) + 1
    ensures MarksTop(w, ranked, mask[ranked[t].index := true], t + 1)
  {
    RankedElement(w, ranked, t);
    var j := ranked[t].index;
    forall s | 0 <= s < t
      ensures ranked[s].index != j
    {
      RankedDistinct(w, ranked, s, t);
    }
    CountTrueSet(mask, j);
  }

  /** A mask of the first m features of the ranking marks none lighter than an unmarked one. */
  lemma TopRankedOutweigh(w: seq<real>, ranked: seq<Scored>, m: nat, mask: seq<bool>)
    requires multiset(ranked) == multiset(Enumerate(w)) && SortedBefore(ranked)
    requires MarksTop(w, ranked, mask, m)
    ensures forall i, j :: 0 <= i < |w| && 0 <= j < |w| && mask[i] && !mask[j] ==> w[i] >= w[j]
  {
    forall i, j | 0 <= i < |w| && 0 <= j < |w| && mask[i] && !mask[j]
      ensures w[i] >= w[j]
    {
      var a :| 0 <= a < m && ranked[a].index == i;
      RankedComplete(w, ranked, j);
      var b :| 0 <= b < |ranked| && ranked[b].index == j;
      RankedElement(w, ranked, a);
      RankedElement(w, ranked, b);
      assert Before(ranked[a], ranked[b]);
    }
  }

  lemma {:induction false} CountFalseRow(n: nat)
    ensures CountTrue(seq(n, _ => false)) == 0
  {
    if n > 0 {
      assert seq(n, _ => false)[..n - 1] == seq(n - 1, _ => false);
      CountFalseRow(n - 1);
    }
  }
}

=== FILE: refinement.dfy ===
/**
 * One call of `_yield_best_weights`: at most five rounds, each sampling a fresh
 * Binary Sampling Matrix from the SAME input weights, scoring every submodel,
 * keeping the top-q submodels of a stable descending sort, and accepting the
 * round only if the mean of their scores strictly beats the best so far.
 */
module Refinement {
  import opened Wrappers
  import opened Numerics
  import opened Sampling
  import opened Ranking

  /** Cross-validated score of the estimator fitted on the given columns of X, in that order. */
  type Scorer = seq<nat> -> real

  /** The k-th shuffled `arange(f * n)` drawn from the random generator. */
  type Shuffles = nat -> seq<nat>

  /** Initial best score of every refinement and of the outer loops. */
  const Sentinel: real := -10000000.0

  /** `for i in range(5)`: the cap on refinement rounds. */
  const MaxRounds: nat := 5

  datatype FitError =
    | EmptyTopQuantile   // unpacking `zip(*[])` when no submodel is kept
    | NoWeights          // `argsort(-None)` when no round ever improved
    | FuelExhausted      // the model's bound on an unbounded `while True`
    | IndexOutOfRange    // reading `var_weights[X.shape[1]]`
    | NoToList           // calling `.tolist()` on a Python list
    | NotFitted          // `check_is_fitted` finds no fitted attribute

  /** `int(0.05 * n_submodels)`. */
  function SelectionQuantile(nSubmodels: nat): (q: nat)
    ensures q == 0 <==> nSubmodels < 20
    ensures q <= nSubmodels
  {
    nSubmodels / 20
  }

  /** Every shuffle the generator draws has one entry per cell of the f × n sampling matrix. */
  ghost predicate ShufflesFit(draw: Shuffles, nFeatures: nat, nSubmodels: nat)
  {
    forall k :: |draw(k)| == nFeatures * nSubmodels
  }

  /** Pairs listed at their own index, as `(score, i) for i in range(n)`. */
  predicate Positional(s: seq<Scored>)
  {
    forall t :: 0 <= t < |s| ==> s[t].index == t
  }

  predicate MatrixShape(bsm: seq<seq<bool>>, n: nat)
  {
    forall i :: 0 <= i < |bsm| ==> |bsm[i]| == n
  }

  /** `_evaluate_submodels`: the score of every column, in submodel order. */
  function Evaluate(scorer: Scorer, bsm: seq<seq<bool>>, n: nat): (r: seq<Scored>)
    requires MatrixShape(bsm, n)
    ensures |r| == n
  {
    seq(n, t requires 0 <= t < n => Scored(scorer(SubmodelFeatures(bsm, t)), t))
  }

  /** Submodel t is listed at position t with the score of the columns it keeps. */
  lemma EvaluateScores(scorer: Scorer, bsm: seq<seq<bool>>, n: nat)
    requires MatrixShape(bsm, n)
    ensures Positional(Evaluate(scorer, bsm, n))
    ensures forall t :: 0 <= t < n ==> Evaluate(scorer, bsm, n)[t].score == scorer(SubmodelFeatures(bsm, t))
  {
  }

  function ScoresOf(top: seq<Scored>): (r: seq<real>)
    ensures |r| == |top| && forall t :: 0 <= t < |top| ==> r[t] == top[t].score
  {
    seq(|top|, t requires 0 <= t < |top| => top[t].score)
  }

  function IndicesOf(top: seq<Scored>): (r: seq<nat>)
    ensures |r| == |top| && forall t :: 0 <= t < |top| ==> r[t] == top[t].index
  {
    seq(|top|, t requires 0 <= t < |top| => top[t].index)
  }

  /** `sorted(submodels, key=-score)[:q]`: the best min(q, n) submodels. */
  function TopModels(scored: seq<Scored>, q: nat): (top: seq<Scored>)
    ensures |top| == Min(q, |scored|)
  {
    SortDescending(scored)[..Min(q, |scored|)]
  }

  /**
   * The kept submodels are in stable descending order, each is a submodel of the
   * round, and no submodel left out scores above a kept one.
   */
  lemma TopModelsRanked(scored: seq<Scored>, q: nat)
    requires Positional(scored)
    ensures SortedBefore(TopModels(scored, q))
    ensures AllBelow(IndicesOf(TopModels(scored, q)), |scored|)
    ensures forall t :: 0 <= t < |TopModels(scored, q)| ==>
      TopModels(scored, q)[t] == scored[TopModels(scored, q)[t].index]
    ensures forall t, u ::
      (0 <= t < |TopModels(scored, q)| && 0 <= u < |scored| && scored[u] !in TopModels(scored, q)) ==>
      TopModels(scored, q)[t].score >= scored[u].score
  {
    var ranked := SortDescending(scored);
    assert IndicesIncreasing(scored);
    SortDescendingSorted(scored);
    SortDescendingPermutes(scored);
    var m := Min(q, |scored|);
    var top := ranked[..m];
    assert top == TopModels(scored, q);
    TopFromScored(scored, ranked, m);
    TopOutscoresRest(scored, ranked, m);
  }

  lemma TopFromScored(scored: seq<Scored>, ranked: seq<Scored>, m: nat)
    requires Positional(scored) && multiset(ranked) == multiset(scored) && m <= |ranked|
    ensures forall t :: 0 <= t < m ==> ranked[t].index < |scored| && ranked[t] == scored[ranked[t].index]
  {
    forall t | 0 <= t < m
      ensures ranked[t].index < |scored| && ranked[t] == scored[ranked[t].index]
    {
      InScored(scored, ranked, t);
    }
  }

  lemma TopOutscoresRest(scored: seq<Scored>, ranked: seq<Scored>, m: nat)
    requires multiset(ranked) == multiset(scored) && SortedBefore(ranked) && m <= |ranked|
    ensures forall t, u :: 0 <= t < m && 0 <= u < |scored| && scored[u] !in ranked[..m] ==>
      ranked[t].score >= scored[u].score
  {
    forall t, u | 0 <= t < m && 0 <= u < |scored| && scored[u] !in ranked[..m]
      ensures ranked[t].score >= scored[u].score
    {
      assert scored[u] in multiset(ranked);
      var b :| 0 <= b < |ranked| && ranked[b] == scored[u];
      assert b >= m;
      assert Before(ranked[t], ranked[b]);
    }
  }

  lemma InScored(scored: seq<Scored>, ranked: seq<Scored>, t: nat)
    requires Positional(scored) && multiset(ranked) == multiset(scored) && t < |ranked|
    ensures ranked[t].index < |scored| && ranked[t] == scored[ranked[t].index]
  {
    assert ranked[t] in multiset(scored);
    var i :| 0 <= i < |scored| && scored[i] == ranked[t];
  }

  /** `np.mean(top_scores)`. */
  function MeanScore(top: seq<Scored>): real
    requires |top| > 0
  {
    Sum(ScoresOf(top)) / |top| as real
  }

  /** The mean of the kept scores lies between the lowest and highest kept score. */
  lemma MeanScoreBounds(top: seq<Scored>, lo: real, hi: real)
    requires |top| > 0
    requires forall t :: 0 <= t < |top| ==> lo <= top[t].score <= hi
    ensures lo <= MeanScore(top) <= hi
  {
    var m := |top| as real;
    var total := Sum(ScoresOf(top));
    SumBounds(ScoresOf(top), lo, hi);
    assert MeanScore(top) == total / m;
    DivBetween(total, m, lo, hi);
  }

  /** A total between m·lo and m·hi averages, over m > 0 items, to between lo and hi. */
  lemma DivBetween(total: real, m: real, lo: real, hi: real)
    requires m > 0.0 && m * lo <= total <= m * hi
    ensures lo <= total / m <= hi
  {
    assert (total / m) * m == total;
  }

  /** x is a multiple of 1/q in [0, 1]. */
  predicate IsFraction(x: real, q: nat)
  {
    0.0 <= x <= 1.0 && (x * q as real).Floor as real == x * q as real
  }

  /** One weight per feature, each a multiple of 1/q in [0, 1]. */
  predicate WeightsOk(ws: seq<real>, nFeatures: nat, q: nat)
  {
    |ws| == nFeatures && forall j :: 0 <= j < |ws| ==> IsFraction(ws[j], q)
  }

  /**
   * `np.sum(bsm[:, top_models], axis=1) / q`: weight j is the number of kept
   * submodels that include feature j, divided by q.
   */
  function TopWeights(bsm: seq<seq<bool>>, top: seq<nat>, q: nat): (ws: seq<real>)
    requires q >= 1 && |top| <= q
    requires forall j :: 0 <= j < |bsm| ==> AllBelow(top, |bsm[j]|)
    ensures WeightsOk(ws, |bsm|, q)
  {
    FractionsOk(bsm, top, q);
    seq(|bsm|, j requires 0 <= j < |bsm| => CountAt(bsm[j], top) as real / q as real)
  }

  /**
   * Weight j of one round times q is the number of kept submodels that include
   * feature j, so it is a multiple of 1/q in [0, 1].
   */
  lemma TopWeightsFractions(bsm: seq<seq<bool>>, top: seq<nat>, q: nat)
    requires q >= 1 && |top| <= q
    requires forall j :: 0 <= j < |bsm| ==> AllBelow(top, |bsm[j]|)
    ensures forall j :: 0 <= j < |bsm| ==> TopWeights(bsm, top, q)[j] == CountAt(bsm[j], top) as real / q as real
    ensures forall j :: 0 <= j < |bsm| ==> IsFraction(TopWeights(bsm, top, q)[j], q)
  {
    forall j | 0 <= j < |bsm|
      ensures TopWeights(bsm, top, q)[j] == CountAt(bsm[j], top) as real / q as real
      ensures IsFraction(TopWeights(bsm, top, q)[j], q)
    {
      var c := CountAt(bsm[j], top);
      var x := TopWeights(bsm, top, q)[j];
      assert x == c as real / q as real;
      Fraction(c, q);
    }
  }

  /** Every count of kept submodels divided by q is a weight the round may give. */
  lemma FractionsOk(bsm: seq<seq<bool>>, top: seq<nat>, q: nat)
    requires q >= 1 && |top| <= q
    requires forall j :: 0 <= j < |bsm| ==> AllBelow(top, |bsm[j]|)
    ensures forall j :: 0 <= j < |bsm| ==> IsFraction(CountAt(bsm[j], top) as real / q as real, q)
  {
    forall j | 0 <= j < |bsm|
      ensures IsFraction(CountAt(bsm[j], top) as real / q as real, q)
    {
      Fraction(CountAt(bsm[j], top), q);
    }
  }

  /** c / q with c <= q is a multiple of 1/q in [0, 1]. */
  lemma Fraction(c: nat, q: nat)
    requires 1 <= q && c <= q
    ensures IsFraction(c as real / q as real, q)
  {
    var x := c as real / q as real;
    assert x * q as real == c as real;
    assert (c as real).Floor == c;
  }

  /** One round on shuffle p: the mean top score and the candidate weights. */
  function RoundOutcome(scorer: Scorer, w: seq<real>, n: nat, q: nat, p: seq<nat>): (r: (real, seq<real>))
    requires Min(q, n) >= 1 && |p| == |w| * n
    ensures WeightsOk(r.1, |w|, q)
  {
    var bsm := SamplingMatrix(w, n, p);
    EvaluateScores(scorer, bsm, n);
    TopModelsRanked(Evaluate(scorer, bsm, n), q);
    var top := TopModels(Evaluate(scorer, bsm, n), q);
    (MeanScore(top), TopWeights(bsm, IndicesOf(top), q))
  }

  /** What a call of `_yield_best_weights` returns, and the next unused shuffle. */
  datatype Refined = Refined(score: real, weights: Option<seq<real>>, nextDraw: nat)

  /**
   * The outcomes of rounds on draws k, k + 1, ...: every round samples from the
   * same input weights w, only the shuffle changes.
   */
  function Outcomes(scorer: Scorer, w: seq<real>, n: nat, q: nat, draw: Shuffles, k: nat, rounds: nat)
    : (r: seq<(real, seq<real>)>)
    requires Min(q, n) >= 1 && ShufflesFit(draw, |w|, n)
    ensures |r| == rounds
  {
    seq(rounds, i requires 0 <= i < rounds => RoundOutcome(scorer, w, n, q, draw(k + i)))
  }

  /** Every round of a call gives one fraction per feature. */
  lemma OutcomesOk(scorer: Scorer, w: seq<real>, n: nat, q: nat, draw: Shuffles, k: nat, rounds: nat)
    requires Min(q, n) >= 1 && ShufflesFit(draw, |w|, n)
    ensures forall i :: 0 <= i < rounds ==> WeightsOk(Outcomes(scorer, w, n, q, draw, k, rounds)[i].1, |w|, q)
  {
    forall i | 0 <= i < rounds
      ensures WeightsOk(Outcomes(scorer, w, n, q, draw, k, rounds)[i].1, |w|, q)
    {
      assert Outcomes(scorer, w, n, q, draw, k, rounds)[i] == RoundOutcome(scorer, w, n, q, draw(k + i));
    }
  }

  /** Round i of a call, whose outcome is (avg, candidate), is accepted or ends the loop. */
  lemma YieldStep(scorer: Scorer, w: seq<real>, n: nat, q: nat, draw: Shuffles, k: nat, i: nat,
                  best: real, bestWeights: Option<seq<real>>, avg: real, candidate: seq<real>)
    requires Min(q, n) >= 1 && ShufflesFit(draw, |w|, n) && i < MaxRounds
    requires (avg, candidate) == RoundOutcome(scorer, w, n, q, draw(k + i))
    ensures var outcomes := Outcomes(scorer, w, n, q, draw, k, MaxRounds);
      && (avg > best ==>
            Refine(outcomes[i..], best, bestWeights, k + i) == Refine(outcomes[i + 1..], avg, Some(candidate), k + i + 1))
      && (avg <= best ==> Refine(outcomes[i..], best, bestWeights, k + i) == Refined(best, bestWeights, k + i + 1))
  {
    var outcomes := Outcomes(scorer, w, n, q, draw, k, MaxRounds);
    assert outcomes[i] == (avg, candidate);
    RefineStep(outcomes, i, best, bestWeights, k + i);
  }

  /**
   * The loop of `_yield_best_weights` over given round outcomes: accept a round
   * while its mean top score strictly beats the best so far, stop at the first
   * one that does not; k counts the shuffles drawn.
   */
  function Refine(outcomes: seq<(real, seq<real>)>, best: real, bestWeights: Option<seq<real>>, k: nat): Refined
  {
    if outcomes == [] then Refined(best, bestWeights, k)
    else if outcomes[0].0 > best then Refine(outcomes[1..], outcomes[0].0, Some(outcomes[0].1), k + 1)
    else Refined(best, bestWeights, k + 1)
  }

  /**
   * At most |outcomes| and at least one shuffle are drawn; the score never drops;
   * weights change only with a strict improvement, and then are present.
   */
  lemma {:induction false} RefineProperties(outcomes: seq<(real, seq<real>)>, best: real,
                                            bestWeights: Option<seq<real>>, k: nat, nFeatures: nat, q: nat)
    requires |outcomes| >= 1
    requires forall i :: 0 <= i < |outcomes| ==> WeightsOk(outcomes[i].1, nFeatures, q)
    requires bestWeights.Some? ==> WeightsOk(bestWeights.value, nFeatures, q)
    ensures k + 1 <= Refine(outcomes, best, bestWeights, k).nextDraw <= k + |outcomes|
    ensures Refine(outcomes, best, bestWeights, k).score >= best
    ensures Refine(outcomes, best, bestWeights, k).weights.Some? ==>
      WeightsOk(Refine(outcomes, best, bestWeights, k).weights.value, nFeatures, q)
    ensures Refine(outcomes, best, bestWeights, k).weights != bestWeights ==>
      Refine(outcomes, best, bestWeights, k).score > best
    ensures Refine(outcomes, best, bestWeights, k).score == best ==>
      Refine(outcomes, best, bestWeights, k).weights == bestWeights
    ensures Refine(outcomes, best, bestWeights, k).score > best ==>
      Refine(outcomes, best, bestWeights, k).weights.Some?
    decreases |outcomes|
  {
    if outcomes[0].0 > best && |outcomes| > 1 {
      RefineProperties(outcomes[1..], outcomes[0].0, Some(outcomes[0].1), k + 1, nFeatures, q);
    }
  }

  /**
   * The result is the starting pair, or the score and the weights of one round,
   * drawn before the next unused shuffle, that beat it.
   */
  lemma {:induction false} RefineFromRound(outcomes: seq<(real, seq<real>)>, best: real,
                                           bestWeights: Option<seq<real>>, k: nat)
    requires |outcomes| >= 1
    ensures Refine(outcomes, best, bestWeights, k).nextDraw > k
    ensures var r := Refine(outcomes, best, bestWeights, k);
      r.score <= best ==> r.score == best && r.weights == bestWeights
    ensures var r := Refine(outcomes, best, bestWeights, k);
      r.score > best ==> exists i :: (0 <= i < |outcomes| && k + i < r.nextDraw &&
                                      r.score == outcomes[i].0 && r.weights == Some(outcomes[i].1))
    decreases |outcomes|
  {
    var r := Refine(outcomes, best, bestWeights, k);
    if outcomes[0].0 > best {
      if |outcomes| > 1 {
        var rest := outcomes[1..];
        RefineFromRound(rest, outcomes[0].0, Some(outcomes[0].1), k + 1);
        assert r == Refine(rest, outcomes[0].0, Some(outcomes[0].1), k + 1);
        if r.score > outcomes[0].0 {
          var i :| 0 <= i < |rest| && k + 1 + i < r.nextDraw && r.score == rest[i].0 && r.weights == Some(rest[i].1);
          assert rest[i] == outcomes[i + 1];
        } else {
          assert k + 0 < r.nextDraw && r.score == outcomes[0].0 && r.weights == Some(outcomes[0].1);
        }
      } else {
        assert outcomes[1..] == [];
        assert r == Refine(outcomes[1..], outcomes[0].0, Some(outcomes[0].1), k + 1);
        assert k + 0 < r.nextDraw && r.score == outcomes[0].0 && r.weights == Some(outcomes[0].1);
      }
    }
  }

  /** One step of the loop: round i either is accepted and the loop goes on, or ends it. */
  lemma RefineStep(outcomes: seq<(real, seq<real>)>, i: nat, best: real, bestWeights: Option<seq<real>>, k: nat)
    requires i < |outcomes|
    ensures outcomes[i].0 > best ==>
      Refine(outcomes[i..], best, bestWeights, k) == Refine(outcomes[i + 1..], outcomes[i].0, Some(outcomes[i].1), k + 1)
    ensures outcomes[i].0 <= best ==> Refine(outcomes[i..], best, bestWeights, k) == Refined(best, bestWeights, k + 1)
  {
    assert outcomes[i..][0] == outcomes[i];
    assert outcomes[i..][1..] == outcomes[i + 1..];
  }

  /** If the first round does not beat the starting score, nothing else is sampled. */
  lemma FirstRoundDecides(outcomes: seq<(real, seq<real>)>, best: real, k: nat)
    requires |outcomes| >= 1 && outcomes[0].0 <= best
    ensures Refine(outcomes, best, None, k) == Refined(best, None, k + 1)
  {
  }

  /**
   * What `_yield_best_weights` returns when it keeps at least one submodel: it
   * draws between one and five shuffles, and returns weights exactly when its
   * score beats the sentinel; those weights are one multiple of 1/q in [0, 1] per
   * feature.
   */
  function Yield(scorer: Scorer, w: seq<real>, n: nat, q: nat, draw: Shuffles, k0: nat): (y: Refined)
    requires Min(q, n) >= 1 && ShufflesFit(draw, |w|, n)
    ensures k0 + 1 <= y.nextDraw <= k0 + MaxRounds
    ensures y.weights.Some? <==> y.score > Sentinel
    ensures y.weights.Some? ==> WeightsOk(y.weights.value, |w|, q)
  {
    OutcomesOk(scorer, w, n, q, draw, k0, MaxRounds);
    RefineProperties(Outcomes(scorer, w, n, q, draw, k0, MaxRounds), Sentinel, None, k0, |w|, q);
    Refine(Outcomes(scorer, w, n, q, draw, k0, MaxRounds), Sentinel, None, k0)
  }

  /** The score and the weights a call returns are the outcome of one round it drew. */
  lemma YieldFromRound(scorer: Scorer, w: seq<real>, n: nat, q: nat, draw: Shuffles, k0: nat)
    requires Min(q, n) >= 1 && ShufflesFit(draw, |w|, n)
    ensures var y := Yield(scorer, w, n, q, draw, k0);
      y.weights.Some? ==> exists d :: (k0 <= d < y.nextDraw &&
                                       RoundOutcome(scorer, w, n, q, draw(d)) == (y.score, y.weights.value))
  {
    var outcomes := Outcomes(scorer, w, n, q, draw, k0, MaxRounds);
    RefineFromRound(outcomes, Sentinel, None, k0);
    var y := Refine(outcomes, Sentinel, None, k0);
    if y.weights.Some? {
      var i :| 0 <= i < MaxRounds && k0 + i < y.nextDraw && y.score == outcomes[i].0 && y.weights == Some(outcomes[i].1);
      var d := k0 + i;
      assert outcomes[i] == RoundOutcome(scorer, w, n, q, draw(d));
    }
  }

  /**
   * `_yield_best_weights(X, y, w, n, rng, q)`: fails when no submodel is kept
   * (q == 0 or n == 0); otherwise runs at most five rounds on consecutive shuffles
   * and returns a score above the sentinel exactly when it found weights.
   */
  method YieldBestWeights(scorer: Scorer, w: seq<real>, n: nat, q: nat, draw: Shuffles, k0: nat)
    returns (r: Result<Refined, FitError>)
    requires ShufflesFit(draw, |w|, n)
    ensures r.Failure? <==> Min(q, n) == 0
    ensures r.Failure? ==> r.error == EmptyTopQuantile
    ensures r.Success? ==> r.value == Yield(scorer, w, n, q, draw, k0)
  {
    if Min(q, n) == 0 {
      return Failure(EmptyTopQuantile);
    }
    ghost var outcomes := Outcomes(scorer, w, n, q, draw, k0, MaxRounds);
    ghost var spec := Refine(outcomes, Sentinel, None, k0);
    var best := Sentinel;
    var bestWeights: Option<seq<real>> := None;
    var i := 0;
    while i < MaxRounds
      invariant 0 <= i <= MaxRounds
      invariant spec == Refine(outcomes[i..], best, bestWeights, k0 + i)
    {
      var (avg, candidate) := RoundOutcome(scorer, w, n, q, draw(k0 + i));
      YieldStep(scorer, w, n, q, draw, k0, i, best, bestWeights, avg, candidate);
      if avg > best {
        best := avg;
        bestWeights := Some(candidate);
      } else {
        return Success(Refined(best, bestWeights, k0 + i + 1));
      }
      i := i + 1;
    }
    return Success(Refined(best, bestWeights, k0 + i));
  }
}

=== FILE: sampling.dfy ===
/**
 * The weighted Binary Sampling Matrix of VISSA (`_produce_submodels`): one row per
 * feature, one column per submodel. Row i starts as a prefix of `round(w_i * n)`
 * true cells and is then reordered by its own column permutation, the argsort of
 * the i-th block of a shuffled `arange(f * n)`. The shuffle is an input.
 */
module Sampling {
  import opened Numerics

  /** `np.round(w * n)`: the number of submodels feature i should appear in. */
  function Appearances(weight: real, nSubmodels: nat): int
  {
    RoundHalfEven(weight * nSubmodels as real)
  }

  /** A weight in [0, 1] asks for between 0 and n appearances, so no clamping happens. */
  lemma AppearancesInRange(weight: real, nSubmodels: nat)
    requires 0.0 <= weight <= 1.0
    ensures 0 <= Appearances(weight, nSubmodels) <= nSubmodels
  {
    NearBetween(weight, nSubmodels, Appearances(weight, nSubmodels));
  }

  lemma MulBetween(w: real, n: real)
    requires 0.0 <= w <= 1.0 && 0.0 <= n
    ensures 0.0 <= w * n <= n
  {
    assert n - w * n == (1.0 - w) * n;
  }

  /** An integer within 0.5 of w * n, for a fraction w, lies in [0, n]. */
  lemma NearBetween(weight: real, n: nat, r: int)
    requires 0.0 <= weight <= 1.0
    requires weight * n as real - 0.5 <= r as real <= weight * n as real + 0.5
    ensures 0 <= r <= n
  {
    MulBetween(weight, n as real);
    assert (r as real) < (n + 1) as real;
  }

  /** Cell j of the unshuffled row is `j + 1 <= appearances` (`arange(1, n + 1) <= appearances`). */
  function PrefixMask(appearances: int, n: nat): (m: seq<bool>)
    ensures |m| == n
    ensures forall j :: 0 <= j < n ==> (m[j] <==> j < appearances)
  {
    seq(n, j => j + 1 <= appearances)
  }

  /** The unshuffled row holds exactly `appearances` true cells, clamped into [0, n]. */
  lemma {:induction false} PrefixMaskCount(appearances: int, n: nat)
    ensures CountTrue(PrefixMask(appearances, n)) == Clamp(appearances, 0, n)
  {
    if n > 0 {
      PrefixMaskCount(appearances, n - 1);
      assert PrefixMask(appearances, n)[..n - 1] == PrefixMask(appearances, n - 1);
    }
  }

  predicate SortedByKey(key: seq<nat>, s: seq<nat>)
    requires AllBelow(s, |key|)
  {
    forall i, j :: 0 <= i < j < |s| ==> key[s[i]] <= key[s[j]]
  }

  /** Insert index k after every index whose key is not larger (a stable insertion). */
  function InsertByKey(key: seq<nat>, sorted: seq<nat>, k: nat): (r: seq<nat>)
    requires k < |key| && AllBelow(sorted, |key|)
    ensures |r| == |sorted| + 1 && AllBelow(r, |key|)
    ensures multiset(r) == multiset(sorted) + multiset{k}
  {
    if sorted == [] then [k]
    else if key[k] < key[sorted[0]] then [k] + sorted
    else
      assert sorted == [sorted[0]] + sorted[1..];
      [sorted[0]] + InsertByKey(key, sorted[1..], k)
  }

  lemma {:induction false} InsertByKeySorted(key: seq<nat>, sorted: seq<nat>, k: nat)
    requires k < |key| && AllBelow(sorted, |key|)
    requires SortedByKey(key, sorted)
    ensures SortedByKey(key, InsertByKey(key, sorted, k))
    decreases |sorted|
  {
    if sorted != [] && key[k] >= key[sorted[0]] {
      var rest := sorted[1..];
      InsertByKeySorted(key, rest, k);
      var r := InsertByKey(key, rest, k);
      forall y | y in r
        ensures key[sorted[0]] <= key[y]
      {
        assert y in multiset(r);
        if y != k {
          assert y in multiset(rest);
        }
      }
    }
  }

  /** Indices 0 .. m - 1 sorted by ascending key. */
  function ArgSortPrefix(key: seq<nat>, m: nat): (r: seq<nat>)
    requires m <= |key|
    ensures |r| == m && AllBelow(r, |key|)
  {
    if m == 0 then [] else InsertByKey(key, ArgSortPrefix(key, m - 1), m - 1)
  }

  lemma {:induction false} ArgSortPrefixPermutes(key: seq<nat>, m: nat)
    requires m <= |key|
    ensures multiset(ArgSortPrefix(key, m)) == multiset(Range(m))
  {
    if m > 0 {
      ArgSortPrefixPermutes(key, m - 1);
      var prev := ArgSortPrefix(key, m - 1);
      assert ArgSortPrefix(key, m) == InsertByKey(key, prev, m - 1);
      assert Range(m) == Range(m - 1) + [m - 1];
    }
  }

  lemma {:induction false} ArgSortPrefixSorted(key: seq<nat>, m: nat)
    requires m <= |key|
    ensures SortedByKey(key, ArgSortPrefix(key, m))
  {
    if m > 0 {
      ArgSortPrefixSorted(key, m - 1);
      InsertByKeySorted(key, ArgSortPrefix(key, m - 1), m - 1);
    }
  }

  /**
   * numpy's `argsort` of one row: a permutation of the row's positions that lists
   * the keys in ascending order. A shuffled `arange` has no equal keys, so the
   * result does not depend on how a sort orders ties.
   */
  function ArgSort(key: seq<nat>): (r: seq<nat>)
    ensures |r| == |key| && AllBelow(r, |key|)
    ensures multiset(r) == multiset(Range(|key|))
    ensures SortedByKey(key, r)
  {
    ArgSortPrefixPermutes(key, |key|);
    ArgSortPrefixSorted(key, |key|);
    ArgSortPrefix(key, |key|)
  }

  /** `row[perm]`: cell j of the result is cell perm[j] of the row. */
  function Permute(row: seq<bool>, perm: seq<nat>): (r: seq<bool>)
    requires AllBelow(perm, |row|)
    ensures |r| == |perm|
  {
    seq(|perm|, j requires 0 <= j < |perm| => row[perm[j]])
  }

  lemma {:induction false} PermuteCount(row: seq<bool>, perm: seq<nat>)
    requires AllBelow(perm, |row|)
    ensures CountTrue(Permute(row, perm)) == CountAt(row, perm)
    decreases |perm|
  {
    if perm != [] {
      var p' := perm[..|perm| - 1];
      assert Permute(row, perm)[..|perm| - 1] == Permute(row, p');
      PermuteCount(row, p');
    }
  }

  /** Reordering a row by a permutation of its positions keeps its number of true cells. */
  lemma PermutePreservesCount(row: seq<bool>, perm: seq<nat>)
    requires AllBelow(perm, |row|)
    requires multiset(perm) == multiset(Range(|row|))
    ensures CountTrue(Permute(row, perm)) == CountTrue(row)
  {
    PermuteCount(row, perm);
    CountAtRange(row);
    CountAtPermutation(row, perm, Range(|row|));
  }

  lemma BlockBound(i: nat, f: nat, n: nat)
    requires i < f
    ensures i * n + n <= f * n
  {
    assert f * n == (f - i - 1) * n + i * n + n;
  }

  /** Row i of the shuffle reshaped to (f, n). */
  function Block(p: seq<nat>, i: nat, n: nat): (b: seq<nat>)
    requires i * n + n <= |p|
    ensures |b| == n
  {
    p[i * n .. i * n + n]
  }

  /** Row i of the Binary Sampling Matrix. */
  function Row(weights: seq<real>, n: nat, p: seq<nat>, i: nat): (row: seq<bool>)
    requires i < |weights| && |p| == |weights| * n
    ensures |row| == n
    ensures CountTrue(row) == Clamp(Appearances(weights[i], n), 0, n)
  {
    BlockBound(i, |weights|, n);
    var perm := ArgSort(Block(p, i, n));
    var mask := PrefixMask(Appearances(weights[i], n), n);
    PermutePreservesCount(mask, perm);
    PrefixMaskCount(Appearances(weights[i], n), n);
    Permute(mask, perm)
  }

  /**
   * `_produce_submodels(weights, n, rng)` where `p` is the shuffled `arange(f * n)`
   * drawn from the generator: an f x n matrix whose row i has exactly
   * `round(w_i * n)` true cells, clamped into [0, n].
   */
  function SamplingMatrix(weights: seq<real>, n: nat, p: seq<nat>): (bsm: seq<seq<bool>>)
    requires |p| == |weights| * n
    ensures |bsm| == |weights|
    ensures forall i :: 0 <= i < |weights| ==> |bsm[i]| == n
  {
    seq(|weights|, i requires 0 <= i < |weights| => Row(weights, n, p, i))
  }

  /** Row i of the matrix has exactly `round(w_i * n)` true cells, clamped into [0, n]. */
  lemma SamplingMatrixCounts(weights: seq<real>, n: nat, p: seq<nat>, i: nat)
    requires |p| == |weights| * n && i < |weights|
    ensures CountTrue(SamplingMatrix(weights, n, p)[i]) == Clamp(RoundHalfEven(weights[i] * n as real), 0, n)
  {
    assert SamplingMatrix(weights, n, p)[i] == Row(weights, n, p, i);
  }

  /** Column t of the matrix: the feature mask of submodel t. */
  function Column(bsm: seq<seq<bool>>, t: nat): (c: seq<bool>)
    requires forall i :: 0 <= i < |bsm| ==> t < |bsm[i]|
    ensures |c| == |bsm|
    ensures forall i :: 0 <= i < |bsm| ==> c[i] == bsm[i][t]
  {
    seq(|bsm|, i requires 0 <= i < |bsm| => bsm[i][t])
  }

  /** `X[:, bsm[:, t]]` keeps the columns of the features in submodel t, in ascending order. */
  function SubmodelFeatures(bsm: seq<seq<bool>>, t: nat): (features: seq<nat>)
    requires forall i :: 0 <= i < |bsm| ==> t < |bsm[i]|
    ensures forall v: nat :: v in features <==> v < |bsm| && bsm[v][t]
    ensures forall a, b :: 0 <= a < b < |features| ==> features[a] < features[b]
  {
    IndicesWhere(Column(bsm, t))
  }
}

=== FILE: sorting.dfy ===
/**
 * Python's `sorted` on the lists the results store keeps: a stable sort under a
 * total preorder, with the string order Python uses (lexicographic by code point).
 */
module Sorting {
  /** `le` relates every pair one way or the other, and chains. */
  ghost predicate TotalPreorder<T(!new)>(le: (T, T) -> bool)
  {
    && (forall a, b :: le(a, b) || le(b, a))
    && (forall a, b, c :: le(a, b) && le(b, c) ==> le(a, c))
  }

  predicate SortedBy<T>(s: seq<T>, le: (T, T) -> bool)
  {
    forall i, j :: 0 <= i < j < |s| ==> le(s[i], s[j])
  }

  /** Put x in front of the first element it does not exceed; x goes before its equals. */
  function Insert<T>(x: T, s: seq<T>, le: (T, T) -> bool): (r: seq<T>)
    ensures |r| == |s| + 1
  {
    if s == [] then [x]
    else if le(x, s[0]) then [x] + s
    else [s[0]] + Insert(x, s[1..], le)
  }

  /** Stable insertion sort: each element goes in front of the later ones it does not exceed. */
  function Sort<T>(s: seq<T>, le: (T, T) -> bool): (r: seq<T>)
    ensures |r| == |s|
  {
    if s == [] then [] else Insert(s[0], Sort(s[1..], le), le)
  }

  lemma {:induction false} InsertPermutes<T>(x: T, s: seq<T>, le: (T, T) -> bool)
    ensures multiset(Insert(x, s, le)) == multiset(s) + multiset{x}
    decreases |s|
  {
    if s != [] && !le(x, s[0]) {
      InsertPermutes(x, s[1..], le);
      assert s == [s[0]] + s[1..];
    }
  }

  lemma {:induction false} InsertSorted<T(!new)>(x: T, s: seq<T>, le: (T, T) -> bool)
    requires TotalPreorder(le) && SortedBy(s, le)
    ensures SortedBy(Insert(x, s, le), le)
    decreases |s|
  {
    if s != [] && !le(x, s[0]) {
      InsertSorted(x, s[1..], le);
      InsertPermutes(x, s[1..], le);
      var r := Insert(x, s[1..], le);
      forall y | y in r
        ensures le(s[0], y)
      {
        assert y in multiset(r);
        if y != x {
          assert y in multiset(s[1..]);
          var j :| 0 <= j < |s[1..]| && s[1..][j] == y;
          assert s[1 + j] == y;
        }
      }
    }
  }

  /** The result of `sorted`: ordered, and the same elements as the input. */
  lemma {:induction false} SortCorrect<T(!new)>(s: seq<T>, le: (T, T) -> bool)
    requires TotalPreorder(le)
    ensures SortedBy(Sort(s, le), le)
    ensures multiset(Sort(s, le)) == multiset(s)
    decreases |s|
  {
    if s != [] {
      var rest := Sort(s[1..], le);
      assert Sort(s, le) == Insert(s[0], rest, le);
      SortCorrect(s[1..], le);
      InsertSorted(s[0], rest, le);
      InsertPermutes(s[0], rest, le);
      assert multiset(s) == multiset(s[1..]) + multiset{s[0]} by {
        assert s == [s[0]] + s[1..];
      }
    }
  }

  /** Python's `<=` on strings: lexicographic by code point, a prefix first. */
  predicate StrLe(a: string, b: string)
  {
    if a == [] then true
    else if b == [] then false
    else if a[0] != b[0] then a[0] < b[0]
    else StrLe(a[1..], b[1..])
  }

  lemma {:induction false} StrLeTotal(a: string, b: string)
    ensures StrLe(a, b) || StrLe(b, a)
    decreases |a|
  {
    if a != [] && b != [] && a[0] == b[0] {
      StrLeTotal(a[1..], b[1..]);
    }
  }

  lemma {:induction false} StrLeTransitive(a: string, b: string, c: string)
    requires StrLe(a, b) && StrLe(b, c)
    ensures StrLe(a, c)
    decreases |a|
  {
    if a != [] && b != [] && c != [] && a[0] == b[0] && b[0] == c[0] {
      StrLeTransitive(a[1..], b[1..], c[1..]);
    }
  }

  /** Two strings that are each at most the other are equal. */
  lemma {:induction false} StrLeAntisymmetric(a: string, b: string)
    requires StrLe(a, b) && StrLe(b, a)
    ensures a == b
    decreases |a|
  {
    if a != [] && b != [] {
      StrLeAntisymmetric(a[1..], b[1..]);
      assert a == [a[0]] + a[1..] && b == [b[0]] + b[1..];
    }
  }

  lemma StrLeTotalPreorder()
    ensures TotalPreorder(StrLe)
  {
    forall a, b
      ensures StrLe(a, b) || StrLe(b, a)
    {
      StrLeTotal(a, b);
    }
    forall a, b, c | StrLe(a, b) && StrLe(b, c)
      ensures StrLe(a, c)
    {
      StrLeTransitive(a, b, c);
    }
  }

  predicate NatLe(a: nat, b: nat)
  {
    a <= b
  }

  lemma NatLeTotalPreorder()
    ensures TotalPreorder(NatLe)
  {
  }
}

=== FILE: vissa.dfy ===
/**
 * `VISSA._fit`: repeat `_yield_best_weights` from the last accepted weights
 * while its score strictly improves, stop early once enough features are
 * certain, and select the features of highest weight.
 */
module Vissa {
  import opened Wrappers
  import opened Numerics
  import opened Ranking
  import opened Refinement

  /** `(n_submodels - 0.5) / n_submodels`: a weight at or above it marks a selected feature. */
  function Threshold(nSubmodels: nat): real
    requires nSubmodels >= 1
  {
    (nSubmodels as real - 0.5) / nSubmodels as real
  }

  /** The threshold lies strictly between 0 and 1, so a weight of 1 always reaches it. */
  lemma ThresholdBelowOne(nSubmodels: nat)
    requires nSubmodels >= 1
    ensures 0.0 < Threshold(nSubmodels) < 1.0
  {
    var nr := nSubmodels as real;
    var t := Threshold(nSubmodels);
    assert t * nr == nr - 0.5;
    if t >= 1.0 {
      assert false;
    }
    if t <= 0.0 {
      assert false;
    }
  }

  /** `np.sum(var_weights >= threshold)`. */
  function CountAtLeast(ws: seq<real>, t: real): nat
  {
    CountTrue(seq(|ws|, j requires 0 <= j < |ws| => ws[j] >= t))
  }

  /**
   * With q = int(0.05 * n) kept submodels, a weight that is a multiple of 1/q
   * reaches the threshold exactly when it is 1: every kept submodel used the feature.
   */
  lemma CertainIffOne(x: real, n: nat)
    requires n >= 20
    requires IsFraction(x, SelectionQuantile(n))
    ensures x >= Threshold(n) <==> x == 1.0
  {
    var q := SelectionQuantile(n);
    var c := Numerator(x, q);
    var qr, nr := q as real, n as real;
    assert qr >= 1.0 && 20.0 * qr <= nr;
    var t := Threshold(n);
    assert t * nr == nr - 0.5;
    if x < 1.0 {
      assert c < q;
      assert x * qr <= qr - 1.0;
      assert x * nr * qr <= (qr - 1.0) * nr;
      assert (qr - 1.0) * nr == qr * nr - nr;
      assert qr * nr - nr <= qr * nr - 20.0 * qr;
      assert x * nr * qr <= (nr - 20.0) * qr;
      assert x * nr <= nr - 20.0;
      assert x * nr < t * nr;
    }
  }

  /**
   * Every weight the outer loop stops with is a multiple of 1/q, so it counts as
   * selected for early stopping exactly when every kept submodel used it.
   */
  lemma RunWeightsCertainIffOne(scorer: Scorer, nFeatures: nat, n: nat, k: nat, draw: Shuffles, fuel: nat)
    requires ShufflesFit(draw, nFeatures, n)
    ensures var r := Run(scorer, nFeatures, n, k, draw, fuel);
      r.Success? && r.value.weights.Some? ==>
        n >= 20 && |r.value.weights.value| == nFeatures && forall j :: 0 <= j < nFeatures ==>
          (r.value.weights.value[j] >= Threshold(n) <==> r.value.weights.value[j] == 1.0)
  {
    var r := Run(scorer, nFeatures, n, k, draw, fuel);
    RunProperties(scorer, nFeatures, n, k, draw, fuel);
    if r.Success? && r.value.weights.Some? {
      var ws := r.value.weights.value;
      forall j | 0 <= j < nFeatures
        ensures ws[j] >= Threshold(n) <==> ws[j] == 1.0
      {
        CertainIffOne(ws[j], n);
      }
    }
  }

  /** The count c behind a fraction x = c / q. */
  lemma Numerator(x: real, q: nat) returns (c: nat)
    requires IsFraction(x, q) && q >= 1
    ensures c as real == x * q as real && c <= q
  {
    c := (x * q as real).Floor;
    assert x * q as real <= q as real;
  }

  /** Why the outer loop stopped, and the weights `var_weights` holds at that point. */
  datatype Stop = Stop(weights: Option<seq<real>>, nextDraw: nat)

  /**
   * The `while True` loop of `VISSA._fit` from draw d with the best score and
   * weights so far; fuel bounds the number of iterations.
   */
  function FitLoop(scorer: Scorer, n: nat, q: nat, k: nat, draw: Shuffles, d: nat,
                   topScore: real, topWeights: seq<real>, fuel: nat): Result<Stop, FitError>
    requires ShufflesFit(draw, |topWeights|, n) && topScore >= Sentinel
    decreases fuel
  {
    if fuel == 0 then Failure(FuelExhausted)
    else if Min(q, n) == 0 then Failure(EmptyTopQuantile)
    else
      var y := Yield(scorer, topWeights, n, q, draw, d);
      if y.score <= topScore then Success(Stop(y.weights, y.nextDraw))
      else if CountAtLeast(y.weights.value, Threshold(n)) >= k then Success(Stop(y.weights, y.nextDraw))
      else FitLoop(scorer, n, q, k, draw, y.nextDraw, y.score, y.weights.value, fuel - 1)
  }

  /** The whole of `VISSA._fit` up to the support mask, from weights 0.5 and draw 0. */
  function Run(scorer: Scorer, nFeatures: nat, n: nat, k: nat, draw: Shuffles, fuel: nat): Result<Stop, FitError>
    requires ShufflesFit(draw, nFeatures, n)
  {
    FitLoop(scorer, n, SelectionQuantile(n), k, draw, 0, Sentinel, seq(nFeatures, _ => 0.5), fuel)
  }

  /**
   * `_fit` fails only on an empty top quantile, which happens exactly when fewer
   * than 20 submodels are drawn, or on running out of fuel; the weights it stops
   * with are absent or one multiple of 1/q in [0, 1] per feature.
   */
  lemma RunProperties(scorer: Scorer, nFeatures: nat, n: nat, k: nat, draw: Shuffles, fuel: nat)
    requires ShufflesFit(draw, nFeatures, n)
    ensures var r := Run(scorer, nFeatures, n, k, draw, fuel);
      && (r.Failure? ==> r.error == FuelExhausted || r.error == EmptyTopQuantile)
      && (r.Failure? && r.error == EmptyTopQuantile <==> fuel >= 1 && n < 20)
      && (r.Success? && r.value.weights.Some? ==> WeightsOk(r.value.weights.value, nFeatures, SelectionQuantile(n)))
  {
    FitLoopProperties(scorer, n, SelectionQuantile(n), k, draw, 0, Sentinel, seq(nFeatures, _ => 0.5), fuel);
  }

  /**
   * The outer loop fails only on an empty top quantile or on running out of
   * fuel; otherwise it has drawn at least one more shuffle, and the weights it
   * stops with are absent or fractions in [0, 1], one per feature.
   */
  lemma {:induction false} FitLoopProperties(scorer: Scorer, n: nat, q: nat, k: nat, draw: Shuffles, d: nat,
                                             topScore: real, topWeights: seq<real>, fuel: nat)
    requires ShufflesFit(draw, |topWeights|, n) && topScore >= Sentinel
    ensures var r := FitLoop(scorer, n, q, k, draw, d, topScore, topWeights, fuel);
      && (r.Failure? ==> r.error == FuelExhausted || r.error == EmptyTopQuantile)
      && (r.Failure? && r.error == EmptyTopQuantile <==> fuel >= 1 && Min(q, n) == 0)
      && (r.Success? ==> r.value.nextDraw > d)
      && (r.Success? && r.value.weights.Some? ==> WeightsOk(r.value.weights.value, |topWeights|, q))
    decreases fuel
  {
    if fuel >= 1 && Min(q, n) >= 1 {
      var y := Yield(scorer, topWeights, n, q, draw, d);
      if y.score > topScore && CountAtLeast(y.weights.value, Threshold(n)) < k {
        FitLoopProperties(scorer, n, q, k, draw, y.nextDraw, y.score, y.weights.value, fuel - 1);
      }
    }
  }

  /** One iteration of the outer loop, as the method takes it, given the call's result y. */
  lemma FitLoopStep(scorer: Scorer, n: nat, q: nat, k: nat, draw: Shuffles, d: nat,
                    topScore: real, topWeights: seq<real>, fuel: nat, y: Refined)
    requires ShufflesFit(draw, |topWeights|, n) && topScore >= Sentinel
    requires fuel >= 1 && Min(q, n) >= 1
    requires y == Yield(scorer, topWeights, n, q, draw, d)
    ensures y.score <= topScore ==>
      FitLoop(scorer, n, q, k, draw, d, topScore, topWeights, fuel) == Success(Stop(y.weights, y.nextDraw))
    ensures y.score > topScore ==> y.weights.Some? && |y.weights.value| == |topWeights|
    ensures y.score > topScore && CountAtLeast(y.weights.value, Threshold(n)) >= k ==>
      FitLoop(scorer, n, q, k, draw, d, topScore, topWeights, fuel) == Success(Stop(y.weights, y.nextDraw))
    ensures y.score > topScore && CountAtLeast(y.weights.value, Threshold(n)) < k ==>
      FitLoop(scorer, n, q, k, draw, d, topScore, topWeights, fuel) ==
        FitLoop(scorer, n, q, k, draw, y.nextDraw, y.score, y.weights.value, fuel - 1)
  {
  }

  /**
   * The `while True` loop of `_fit`: refine from the current best weights, keep
   * a strictly better result, and stop on no improvement or once k weights are
   * certain. Computes `Run`.
   */
  method OuterLoop(scorer: Scorer, nFeatures: nat, n: nat, k: nat, draw: Shuffles, fuel: nat)
    returns (r: Result<Stop, FitError>)
    requires ShufflesFit(draw, nFeatures, n)
    ensures r == Run(scorer, nFeatures, n, k, draw, fuel)
  {
    var q := SelectionQuantile(n);
    var topScore := Sentinel;
    var topWeights := seq(nFeatures, _ => 0.5);
    var d := 0;
    var left: nat := fuel;
    ghost var run := Run(scorer, nFeatures, n, k, draw, fuel);
    assert run == FitLoop(scorer, n, q, k, draw, 0, Sentinel, topWeights, fuel);
    while true
      invariant |topWeights| == nFeatures && topScore >= Sentinel
      invariant run == FitLoop(scorer, n, q, k, draw, d, topScore, topWeights, left)
      decreases left
    {
      if left == 0 {
        return Failure(FuelExhausted);
      }
      var y := YieldBestWeights(scorer, topWeights, n, q, draw, d);
      if y.Failure? {
        return Failure(y.error);
      }
      FitLoopStep(scorer, n, q, k, draw, d, topScore, topWeights, left, y.value);
      d := y.value.nextDraw;
      if y.value.score > topScore {
        topScore := y.value.score;
        topWeights := y.value.weights.value;
        if CountAtLeast(topWeights, Threshold(n)) >= k {
          return Success(Stop(y.value.weights, d));
        }
      } else {
        return Success(Stop(y.value.weights, d));
      }
      left := left - 1;
    }
  }

  /** An attribute that a fit may or may not have set. */
  datatype Attr<T> = Unset | Set(value: T)

  class Vissa {
    const nSubmodels: nat
    /** `weights_`: the weights of the last refinement, possibly None. */
    var weights: Attr<Option<seq<real>>>
    /** `support_`: the mask of selected features. */
    var support: Attr<seq<bool>>

    constructor(nSubmodels: nat)
      ensures this.nSubmodels == nSubmodels
      ensures weights == Unset && support == Unset
    {
      this.nSubmodels := nSubmodels;
      weights := Unset;
      support := Unset;
    }

    /**
     * `_fit(X, y, k)` on a data set with nFeatures columns: runs the outer loop,
     * stores the weights it stopped with (even when they came from a rejected
     * call, or are None), clears the support to nFeatures False entries, and marks
     * the k features of highest weight; `argsort` raises on None weights after
     * the cleared support is stored.
     */
    method Fit(scorer: Scorer, nFeatures: nat, k: nat, draw: Shuffles, fuel: nat) returns (err: Option<FitError>)
      requires ShufflesFit(draw, nFeatures, nSubmodels)
      modifies this
      ensures var run := Run(scorer, nFeatures, nSubmodels, k, draw, fuel);
        && (run.Failure? ==> err == Some(run.error) && weights == old(weights) && support == old(support))
        && (run.Success? ==> weights == Set(run.value.weights))
        && (run.Success? && run.value.weights.None? ==>
              err == Some(NoWeights) && support == Set(seq(nFeatures, _ => false)))
        && (run.Success? && run.value.weights.Some? ==>
              err == None && |run.value.weights.value| == nFeatures &&
              support.Set? && |support.value| == nFeatures &&
              CountTrue(support.value) == Min(k, nFeatures) &&
              forall i, j :: 0 <= i < nFeatures && 0 <= j < nFeatures && support.value[i] && !support.value[j] ==>
                run.value.weights.value[i] >= run.value.weights.value[j])
    {
      var run := OuterLoop(scorer, nFeatures, nSubmodels, k, draw, fuel);
      RunProperties(scorer, nFeatures, nSubmodels, k, draw, fuel);
      if run.Failure? {
        return Some(run.error);
      }
      weights := Set(run.value.weights);
      support := Set(seq(nFeatures, _ => false));
      if run.value.weights.None? {
        return Some(NoWeights);
      }
      var mask := SupportMask(run.value.weights.value, k);
      support := Set(mask);
      return None;
    }

    /** `_get_support_mask`: the mask the last completed fit stored, if any. */
    function GetSupportMask(): (r: Result<seq<bool>, FitError>)
      reads this
      ensures r.Success? <==> support.Set?
      ensures r.Success? ==> r.value == support.value
      ensures r.Failure? ==> r.error == NotFitted
    {
      if support.Set? then Success(support.value) else Failure(NotFitted)
    }
  }
}

=== FILE: wrappers.dfy ===
/** Option and Result values for the error paths of the modelled code. */
module Wrappers {

  datatype Option<+T> = None | Some(value: T)

  /** `Failure` stands for an exception raised by the source. */
  datatype Result<+T, +E> = Success(value: T) | Failure(error: E)
}
